=== FILE: README.md ===
# AnatomyProjects core, modelled in Dafny

This project models the decision logic of three programs from the AnatomyProjects
repository and proves properties of it:

- **YoloTrack** (`yolo.py`). It tracks players' identities on a football pitch.
  - A per-frame registration session decides whether a frame's homography can be
    updated. It keeps the 30 best descriptor matches and needs at least 10.
  - Each detection projected into the 800×600 pitch plane is given a player id. The
    first five players get the seeded ids 0..4. After that, a detection takes the
    nearest track whose last point lies strictly inside a gate of 50, or else a new
    id one past the largest.
  - Histories only grow, and a colour is fixed on first sight.
  - `format_tracking_data` reshapes the result for export.
- **Organ puzzle** (Unity C#). This part has three state machines:
  - the `GameManager` round lifecycle: start, a 7-minute countdown, win or timeout,
    and restart;
  - the `Snapping` latch with its shared `snappedPieceCount`;
  - the `PuzzlePieceMovement` lock that lets only one piece be dragged at a time.
- **DICOM viewer** (`DCMViewer.py`). Its non-GUI logic is:
  - frame clamping;
  - cine playback with its timer;
  - view reset;
  - the case-insensitive metadata search;
  - the anonymisation rewrite.

One module per concern. Every file is self-contained Dafny:

| file | module | what |
|---|---|---|
| `options.dfy` | `Options` | `Option` |
| `numeric.dfy` | `Numeric` | Python `int()` truncation and C# float `%` on reals |
| `decimal.dfy` | `Decimal` | `str(int)`, its parse, C# `"00"` formatting |
| `ordered_dict.dfy` | `OrderedDict` | Python's insertion-ordered `dict` |
| `registration.dfy` | `Registration` | `PitchTracker`: match selection, update guards, `transform_point` |
| `tracker.dfy` | `Tracker` | `assign_player_id`, the per-detection step, frames, export |
| `game_manager.dfy` | `GameManager` | `GameManager` |
| `snapping.dfy` | `Snapping` | `Snapping` |
| `movement.dfy` | `PieceMovement` | `PuzzlePieceMovement` |
| `dicom_viewer.dfy` | `DicomViewer` | `DICOMViewerApp` |

Design choices:

- **Distances are compared squared.** The tracker's points are integer pairs,
  because `transform_point` truncates with `int()`. So the gate test and the
  nearest test of `assign_player_id` are exact on squared integer distances.
- **Floating-point and library work are inputs or oracles.** ORB keypoint
  extraction and brute-force matching are an input per frame: `FrameFeatures`
  is no descriptors, a matcher error, or the matches. The RANSAC homography fit
  and the perspective maths become function parameters: `fit` and `project`. So
  do the Unity engine's interpolation and quaternion angle (`Engine`) and
  pydicom's printing of an element (`render`).
- **Randomness and I/O become inputs.** These are the colour `np.random.randint`
  draws, the 8-character anonymisation suffixes, `Time.deltaTime`, and the
  mouse's world point.

**Seeded ids ignore proximity.** The first five accepted detections take the
seeded ids 0..4 from `player_ids` whatever their position (yolo.py:241, 301-302).
So two consecutive detections at (400,300) and (405,300), only 5 apart, become
players 0 and 1. `Tracker.SeededIdsIgnoreProximity` proves this. Proximity only
applies from the sixth accepted detection on, as `Tracker.NearestTrackKeepsItsId`
and `Tracker.FarDetectionStartsNewTrack` show.

## Model

| member | source | states |
|---|---|---|
| Registration.GoodMatches | YoloTrack/src/yolo.py:70-72 | the kept matches are the `min(30, n)` best by distance, in order: sorted, drawn from the input, none worse than any dropped match; matches of equal distance keep their input order, and at the cut the earliest of them are kept |
| Registration.SortIsStable | YoloTrack/src/yolo.py:71 | `sorted` is stable: the matches with any one distance keep their input order |
| Registration.SortByDistance | YoloTrack/src/yolo.py:71 | `sorted(matches, key=distance)`: ascending by distance, a permutation of the input, of the same length |
| Registration.StablePrefix | YoloTrack/src/yolo.py:70-72 | for every distance, the kept matches with that distance are the first ones of the input's matches with it |
| Registration.InitializeReference | YoloTrack/src/yolo.py:21-57 | the reference features are stored even if corner selection is quit; success exactly when four corners are picked, and only then are they stored |
| Registration.UpdateTransform | YoloTrack/src/yolo.py:59-103 | succeeds iff there are reference features, descriptors in the frame, at least 10 kept matches, corners and a fitted matrix; a failure leaves the session unchanged; success replaces only the matrix |
| Registration.TransformIgnoresPrevious | YoloTrack/src/yolo.py:77-100 | whether the update succeeds, and the matrix it stores, do not depend on the previous frame's matrix |
| Registration.TransformPoint | YoloTrack/src/yolo.py:105-116 | no point without a matrix or when the projection fails; otherwise both coordinates truncated toward zero |
| Registration.AcceptedRawRegion | YoloTrack/src/yolo.py:297-298 | the inclusive 800×600 filter, applied to the `int()`-truncated points, accepts exactly the raw projections in the open rectangle (-1,801)×(-1,601) |
| Tracker.InitialTracker | YoloTrack/src/yolo.py:239-241 | no histories, no colours, and the seeded ids 0..4 in the pool; the invariant holds |
| Tracker.AssignPlayerId | YoloTrack/src/yolo.py:135-148 | returns the nearest track strictly inside the gate, the earliest on ties, tracks without history never counting; with no such track it returns max id + 1, or 0 when there are none, which is never an existing id, and never -1 even when -1 is a key |
| Tracker.Scan | YoloTrack/src/yolo.py:140-146 | the loop ends holding the first place of minimal distance among in-gate tracks, or none if no track is in the gate |
| Tracker.MaxKey | YoloTrack/src/yolo.py:148 | `max(keys, default=-1)`: an upper bound that is one of the keys, or -1 for none |
| Tracker.NextId | YoloTrack/src/yolo.py:301-304 | `player_ids.pop(0)` while seeded ids remain; afterwards the nearest in-gate track's id, or max id + 1 for a new track |
| Tracker.Record | YoloTrack/src/yolo.py:313 | the id's history, empty if new, gains the point at its end; every other history is unchanged; a new id goes last in the key order |
| Tracker.Paint | YoloTrack/src/yolo.py:307-308 | the drawn colour is stored only for an id without one; existing colours and key order stay |
| Tracker.Observe | YoloTrack/src/yolo.py:293-313 | a missing or out-of-plane point changes nothing; otherwise exactly one history grows by the point, the others are untouched, the key order only grows at the end, and a colour is stored only for a new id |
| Tracker.PoolIdsComeInOrder | YoloTrack/src/yolo.py:301-302 | while seeded ids remain, the next id is the number of tracks so far, and is new |
| Tracker.ObservePreservesInv | YoloTrack/src/yolo.py:296-313 | the two dicts keep the same key order; ids are non-negative; histories are non-empty and in the plane; colours are in 0..254; the pool is a suffix of 0..4 |
| Tracker.ObserveExtends | YoloTrack/src/yolo.py:307-313 | append-only: old ids keep their place, old histories are prefixes of the new, colours never change |
| Tracker.ObserveRecordsOnePoint | YoloTrack/src/yolo.py:313 | an accepted detection adds exactly one point in total; a rejected one adds none |
| Tracker.ObserveAll | YoloTrack/src/yolo.py:288-313 | the detection loop keeps both dicts well formed, and a frame with no accepted detection changes nothing |
| Tracker.ObserveAllSound | YoloTrack/src/yolo.py:288-313 | over a frame's detections the invariant and append-only growth hold, and exactly one point is recorded per accepted detection |
| Tracker.ProcessFrame | YoloTrack/src/yolo.py:252-256 | a failed transform update skips the frame: session and tracker are unchanged |
| Tracker.ProcessFrameSound | YoloTrack/src/yolo.py:252-313 | a whole frame keeps the invariant, only adds to the record, and adds one point per accepted detection, or none after a failed update |
| Tracker.FrameWithoutKeypoints | YoloTrack/src/yolo.py:66-68 | a frame without descriptors changes nothing |
| Tracker.SeededIdsIgnoreProximity | YoloTrack/src/yolo.py:301-304 | detections at (400,300) and (405,300) become players 0 and 1 |
| Tracker.NearestTrackKeepsItsId | YoloTrack/src/yolo.py:140-146 | after seeding, a detection inside the gate of track k, a non-negative id, and strictly nearer to k than to any other track's last point keeps id k |
| Tracker.FarDetectionStartsNewTrack | YoloTrack/src/yolo.py:144-148 | after seeding, a detection at distance 50 or more from every track starts a new one-point track under max id + 1 with the drawn colour |
| Tracker.ShowKeysDistinct | YoloTrack/src/yolo.py:200 | distinct ids have distinct `str` keys, so the export drops no colour |
| Tracker.ExportColors | YoloTrack/src/yolo.py:200 | colour keys are the ids' decimal texts, in dict order, each mapped to its three channels |
| Tracker.FormatTrackingData | YoloTrack/src/yolo.py:196-201 | positions copied unchanged; colour keys are the ids' `str` texts in the same order, each with its colour as a list |
| Tracker.ExportRoundTrip | YoloTrack/src/yolo.py:196-201 | positions are copied unchanged; every colour key parses back to its id, in order, with its channels in 0..254 |
| Decimal.Show | YoloTrack/src/yolo.py:200 | `str(n)` is non-empty, starts with '-' exactly for negative n, and is digits otherwise |
| Decimal.ParseShow | YoloTrack/src/yolo.py:200 | `str(k)` is a numeral that reads back as `k` |
| GameManager.Loaded | Organpuzzle/Assets/GameManeger.cs:14-18 | the field initialisers: timer 0, round not started, `isGameActive` true, the scene's pieces |
| GameManager.Start | Organpuzzle/Assets/GameManeger.cs:20-36 | pieces inactive, restart button and message hidden, timer text "Time: 07:00" |
| GameManager.StartGame | Organpuzzle/Assets/GameManeger.cs:62-77 | round started and game active, timer 0, every piece active, start button hidden; message and timer text untouched |
| GameManager.AllPiecesSnapped | Organpuzzle/Assets/GameManeger.cs:88-101 | true exactly when every piece with a `Snapping` component is snapped; pieces without one are ignored and no pieces is true |
| GameManager.TimerText | Organpuzzle/Assets/GameManeger.cs:80-86 | for a timer in [0, 421] the text is "Time: mm:ss", seconds below 60, and mm·60+ss is the whole seconds left |
| Numeric.FMod | Organpuzzle/Assets/GameManeger.cs:84 | C#'s float `%` for a positive divisor: the remainder takes the dividend's sign and is smaller than the divisor in size |
| GameManager.TimerFields | Organpuzzle/Assets/GameManeger.cs:83-84 | minutes in 0..7 and `fmod` seconds in 0..59 add up to ⌊421 − timer⌋ |
| GameManager.FirstSecondShowsSevenMinutes | Organpuzzle/Assets/GameManeger.cs:80-86 | during the first second the text computed by `UpdateTimerUI` equals `Start`'s initial "Time: 07:00" |
| GameManager.TimerEnded | Organpuzzle/Assets/GameManeger.cs:103-119 | clears both flags, chooses the message by `success`, shows message and restart button |
| GameManager.Update | Organpuzzle/Assets/GameManeger.cs:38-60 | no change unless started; the timer and its text advance only below 420, else timeout with the text kept; the round ends iff timeout or all snapped, and a win in the same frame overrides the timeout message |
| GameManager.RestartGame | Organpuzzle/Assets/GameManeger.cs:122-144 | timer 0 and its text back to "Time: 07:00", not started, pieces inactive, start button shown, restart and message hidden, `isGameActive` untouched |
| GameManager.OperationsKeepRoundInv | Organpuzzle/Assets/GameManeger.cs:62-144 | while a round runs the game is active, the start button hidden and every piece active |
| GameManager.Tick | Organpuzzle/Assets/GameManeger.cs:38-60 | one frame reads the pieces' snapped flags and runs `Update`: the round invariant holds on, and nothing but those flags changes before a round starts |
| GameManager.WinWhenAllSnapped | Organpuzzle/Assets/GameManeger.cs:54-58 | a frame in which every piece reports snapped ends a running round with the win message and the game inactive |
| GameManager.UnsnappedPieceKeepsRound | Organpuzzle/Assets/GameManeger.cs:43-58 | while one piece is unsnapped and the timer is below 420, the round keeps running and the timer advances by `deltaTime` |
| GameManager.Run | Organpuzzle/Assets/GameManeger.cs:38-60 | over any frames the round invariant holds on and no round starts by itself |
| GameManager.RoundEnds | Organpuzzle/Assets/GameManeger.cs:43-52 | with frames of at least one second, every round ends within 421 frames |
| Snapping.Update | OrganPuzzleGame/Assets/snapping.cs:16-61 | no change without a reference, once snapped, or beyond the snap distance; within it the piece takes one snap step for the frame's `deltaTime`, and when that step lands within 0.01 and aligned the piece is put exactly on the reference, the latch closes and the counter grows by one, else only the pose moves |
| Snapping.SetExpectedReferencePiece | OrganPuzzleGame/Assets/snapping.cs:64-68 | new reference, latch reopened, counter untouched |
| Snapping.Apply | OrganPuzzleGame/Assets/snapping.cs:16-68 | one event, a piece's `Update` with that frame's `deltaTime` or a new reference: pieces keep their number and the counter never decreases |
| Snapping.Run | OrganPuzzleGame/Assets/snapping.cs:16-68 | any sequence of such events, each frame with its own `deltaTime`: the counter never decreases |
| Snapping.UpdateKeepsInv | OrganPuzzleGame/Assets/snapping.cs:55 | the counter and the number of closed latches grow together |
| Snapping.RunKeepsCounter | OrganPuzzleGame/Assets/snapping.cs:47-68 | over any sequence of frames, each with its own `deltaTime`, and reference changes, the counter never decreases and never falls below the closed latches |
| Snapping.AllSnappedCounted | OrganPuzzleGame/Assets/snapping.cs:10-11 | when all latches are closed the counter is at least the number of pieces |
| PieceMovement.StartPiece | OrganPuzzleGame/Assets/moving.cs:37-47 | a piece with a renderer remembers its colour |
| PieceMovement.Highlight | OrganPuzzleGame/Assets/moving.cs:84-90 | recolours only with a renderer and an active game: highlight on pick-up, saved colour on release |
| PieceMovement.OnMouseDown | OrganPuzzleGame/Assets/moving.cs:49-69 | picks up only an unsnapped piece with a `Snapping` component while the lock is free; then it holds the lock, is selected and highlighted, and its offset keeps it in place |
| PieceMovement.OnMouseUp | OrganPuzzleGame/Assets/moving.cs:71-82 | only the dragged piece lets go, freeing the lock and dropping the highlight |
| PieceMovement.MouseEventsKeepInv | OrganPuzzleGame/Assets/moving.cs:49-82 | a piece is dragged exactly when it holds the shared slot |
| PieceMovement.InvMeansOneDragged | OrganPuzzleGame/Assets/moving.cs:35 | at most one piece is dragged |
| PieceMovement.Update | OrganPuzzleGame/Assets/moving.cs:92-107 | acts only on a dragged piece in an active game: it follows mouse + offset, and turns and moves by the keys only when it holds the slot |
| PieceMovement.Rotation | OrganPuzzleGame/Assets/moving.cs:118-152 | X and Y each turn by speed·dt while their key is held; Z by the clockwise key first |
| PieceMovement.Translation | OrganPuzzleGame/Assets/moving.cs:155-197 | each axis moves by speed·dt towards the held key, positive first |
| PieceMovement.PositiveKeyMasksNegative | OrganPuzzleGame/Assets/moving.cs:140-192 | with the positive or clockwise key held, the opposite key makes no difference |
| PieceMovement.RotationAxesIndependent | OrganPuzzleGame/Assets/moving.cs:128-138 | the X and Y rotation keys do not affect each other's axis |
| PieceMovement.DraggedPieceGetsKeys | OrganPuzzleGame/Assets/moving.cs:102-106 | under the lock the dragged piece always gets its key handling |
| PieceMovement.PickUpDoesNotJump | OrganPuzzleGame/Assets/moving.cs:96-98 | if the mouse has not moved since pick-up, the target is the piece's own position |
| PieceMovement.HighlightRoundTrip | OrganPuzzleGame/Assets/moving.cs:67-90 | pick-up then release restores the saved colour, or leaves the highlight if the game went inactive meanwhile |
| DicomViewer.Initial | DicomShow/DCMViewer.py:64-76 | no file, not playing, no timer, 15 fps, frame 0 of 0, zoom 1, brightness 0, contrast 1, and the invariant holds |
| DicomViewer.Interval | DicomShow/DCMViewer.py:568 | `int(1000 / fps)` equals integer division and lies in 16..1000 for 1..60 fps |
| DicomViewer.Select | DicomShow/DCMViewer.py:465-480 | multi-frame: the index clamped into [0, total−1], and frame 0 when there are no frames; 3-D: slice 0; otherwise the whole image |
| DicomViewer.DisplayImage | DicomShow/DCMViewer.py:465-480 | without pixel data nothing changes; otherwise only the shown image changes, to the frame `Select` picks |
| DicomViewer.UpdateFrame | DicomShow/DCMViewer.py:300-305 | with pixel data the slider value becomes the current frame and is displayed; otherwise nothing |
| DicomViewer.UpdateCineFrame | DicomShow/DCMViewer.py:571-575 | with pixels and more than one frame: next frame, in range, wrapping from last to 0; otherwise nothing |
| DicomViewer.TicksCycle | DicomShow/DCMViewer.py:571-575 | after n ticks the frame is (start + n) mod total |
| DicomViewer.FullCycleReturns | DicomShow/DCMViewer.py:574 | a full cycle of ticks returns to the starting frame |
| DicomViewer.ToggleCinePlay | DicomShow/DCMViewer.py:547-561 | refused, with no change, without pixels or with at most one frame; otherwise flips playback, starting the timer at the current rate |
| DicomViewer.UpdateFrameRate | DicomShow/DCMViewer.py:563-569 | stores the rate and restarts a running timer at the new period |
| DicomViewer.ResetView | DicomShow/DCMViewer.py:314-322 | zoom 1, brightness 0, contrast 1, frame 0; playback untouched |
| DicomViewer.LoadFile | DicomShow/DCMViewer.py:366-383 | a cancelled dialog or unreadable file changes nothing; unreadable pixels store the new dataset but keep the old image and frame state; decoded pixels give the new dataset, frame count from `NumberOfFrames` or 1, frame 0; playback is never stopped |
| DicomViewer.OperationsKeepInv | DicomShow/DCMViewer.py:547-569 | playback runs exactly while the timer runs, at the period of the current frame rate |
| DicomViewer.SingleFrameLoadKeepsTimer | DicomShow/DCMViewer.py:547-575 | after loading a single-frame file during playback, the timer keeps running, the play button cannot stop it, and ticks change nothing |
| DicomViewer.Contains | DicomShow/DCMViewer.py:645 | `term in text` holds exactly when the term occurs at some position |
| DicomViewer.FilterTexts | DicomShow/DCMViewer.py:642-646 | keeps exactly the texts whose lower case contains the lower-cased term, each as often as given, in original order |
| DicomViewer.EmptyTermKeepsAll | DicomShow/DCMViewer.py:641-646 | an empty search keeps everything |
| DicomViewer.FilterIdempotent | DicomShow/DCMViewer.py:642-646 | searching the result again for the same term changes nothing |
| DicomViewer.SplitJoin | DicomShow/DCMViewer.py:649 | the `"\n".join` splits back into the texts when none contains a newline |
| DicomViewer.FilterAllAttributes | DicomShow/DCMViewer.py:635-649 | only the tab text changes: "No file loaded." without a file, "" when nothing matches, and otherwise text whose lines are exactly the matching element texts in order |
| DicomViewer.SearchTabSplitsBack | DicomShow/DCMViewer.py:635-649 | when no element text holds a newline, the tab's lines are exactly the element texts containing the term, in order |
| DicomViewer.EmptySearchListsAll | DicomShow/DCMViewer.py:635-649 | with an empty search the tab lists every element's text in order |
| DicomViewer.Scrub | DicomShow/DCMViewer.py:513-529 | a field listed before the point the loop reached becomes prefix + 8 alphanumerics; any other element is unchanged |
| DicomViewer.Anonymize | DicomShow/DCMViewer.py:496-529 | no file or an empty dataset: no change; missing or empty prefix: no change; else the outcome is `Rewritten` exactly when no write fails, and every listed field present is rewritten to prefix + 8 alphanumerics, all else is unchanged; a write that fails at a present field stops the loop there, leaving the fields before it rewritten and the rest unchanged |
| DicomViewer.AnonymizeIdempotent | DicomShow/DCMViewer.py:527-529 | with the same prefix and suffixes, anonymising twice equals once |

## Left out

- OpenCV registration maths is not modelled. ORB `detectAndCompute` and brute-force `match` (yolo.py:65-70) are replaced by the frame's `FrameFeatures` input. RANSAC `findHomography`, the matrix inverse and the perspective transforms (yolo.py:78-99, 111-113) are the oracles `fit` and `project`. All of it is floating-point work inside a library.
- Not modelled from `yolo.py`:
  - interactive corner selection (only its outcome, corners or none, is an input);
  - YOLO loading, detection and non-maximum suppression;
  - video capture, drawing and `draw_2d_pitch`;
  - `visualize_player_data`;
  - the heat map.

  The tracker receives the detections after non-maximum suppression.
- Random draws are inputs: the colour from `np.random.randint` and the anonymisation suffixes from `random.choices`.
- DicomViewer.Anonymize: the suffix for a field is `suffixes[i]`, indexed by its place in the field list. The source draws a fresh suffix for each present field in turn. The values differ only in which random draw lands where.
- Unity engine geometry is left out or made an oracle. This covers `Vector3.Lerp`, `Quaternion.Lerp`, rounding to 0.01, `Quaternion.Angle`, `Transform.Rotate` and `Translate`, and screen-to-world conversion. Snap interpolation and alignment are the `Engine` parameter. Rotation and translation amounts are the output of `PieceMovement.Update`.
- GameManager.Tick: the pieces' snapped flags are a per-frame input, not computed by the `Snapping` module, because the scene's script execution order is engine configuration.
- DicomViewer.LoadFile: an exception from `display_image` or `populate_metadata` after the pixels are read is not modelled; the state is then as on success, short of the redraw.
- GameManager.Update: the timer is a real number, so float32 rounding of `timer += deltaTime` is not modelled.
- The audio, `Debug.Log` and `completionText` of `Snapping` are not modelled.
- The randomizer's re-scatter in `RestartGame` is not modelled.
- `PieceMovement.Update`: the model returns the target position (mouse + offset) instead of assigning it, because the engine then applies `Rotate` and `Translate` to it.
- The Qt widgets, dialogs, shortcuts and pydicom reading and saving are not modelled. Nor are `populate_metadata`'s tab texts, `normalize_pixel_data`, the brightness/contrast/zoom image pipeline, screenshots or the 3-D slice dialog. All of these are GUI, file I/O or numpy floating point. Saving the anonymised copy is not modelled either: the rewrite stays in memory whether or not the save dialog is cancelled, and the model shows that state.
- DicomViewer.Matches: `str.lower()` is modelled on ASCII letters only; Unicode case mapping is left out.
- The earlier, shadowed definitions of `update_dicom_tags` and `update_frame_rate` (DCMViewer.py:308, 437, 451) are dead code and not modelled; the later `update_frame_rate` (563) is.
- These files are not part of this model:
  - `start.cs` (a single scene load);
  - `PuzzlePieceRandomizer.cs` (random scatter);
  - `CameraRotateAroundObject.cs` (camera orbit);
  - `PuzzlePieceTransform.cs` (input polling that duplicates `moving.cs`);
  - `replace_submodules.py` (git and filesystem commands);
  - `Medical Image Viewer.py`.

=== FILE: decimal.dfy ===
/** Decimal text of integers: Python's `str(n)` and C#'s `ToString("00")`. */
module Decimal {

  predicate IsDigit(c: char) {
    '0' <= c <= '9'
  }

  predicate AllDigits(s: string) {
    forall i :: 0 <= i < |s| ==> IsDigit(s[i])
  }

  function DigitChar(d: int): (c: char)
    requires 0 <= d < 10
    ensures IsDigit(c)
  {
    ('0' as int + d) as char
  }

  function DigitValue(c: char): (d: int)
    requires IsDigit(c)
    ensures 0 <= d < 10
  {
    c as int - '0' as int
  }

  /** The shortest decimal numeral of a natural number. */
  function ShowNat(n: nat): (s: string)
    ensures |s| >= 1 && AllDigits(s)
    ensures n >= 10 ==> s[0] != '0'
    decreases n
  {
    if n < 10 then [DigitChar(n)] else ShowNat(n / 10) + [DigitChar(n % 10)]
  }

  /** `str(n)`: a minus sign before the numeral of |n| when n is negative. */
  function Show(n: int): (s: string)
    ensures |s| >= 1
    ensures n < 0 <==> s[0] == '-'
    ensures n >= 0 ==> AllDigits(s)
    ensures n < 0 ==> |s| >= 2 && AllDigits(s[1..])
  {
    if n < 0 then "-" + ShowNat(-n) else ShowNat(n)
  }

  /** Reads a string of digits back as a number. */
  function ParseNat(s: string): nat
    requires AllDigits(s)
    decreases |s|
  {
    if |s| == 0 then 0 else 10 * ParseNat(s[..|s| - 1]) + DigitValue(s[|s| - 1])
  }

  /** The text `Show` produces: an optional minus sign and at least one digit. */
  predicate IsNumeral(s: string) {
    if |s| > 0 && s[0] == '-' then |s| > 1 && AllDigits(s[1..])
    else |s| > 0 && AllDigits(s)
  }

  function Parse(s: string): int
    requires IsNumeral(s)
  {
    if s[0] == '-' then -(ParseNat(s[1..]) as int) else ParseNat(s)
  }

  lemma {:induction false} ParseShowNat(n: nat)
    ensures ParseNat(ShowNat(n)) == n
    decreases n
  {
    if n >= 10 {
      var s := ShowNat(n);
      assert s[..|s| - 1] == ShowNat(n / 10);
      ParseShowNat(n / 10);
    }
  }

  /** Reading the text of `n` back yields `n`: `Show` loses nothing. */
  lemma ParseShow(n: int)
    ensures IsNumeral(Show(n))
    ensures Parse(Show(n)) == n
  {
    if n < 0 {
      assert Show(n)[1..] == ShowNat(-n);
      ParseShowNat(-n);
    } else {
      ParseShowNat(n);
    }
  }

  /** Distinct numbers have distinct texts, so `str` keys never collide. */
  lemma ShowInjective(a: int, b: int)
    requires Show(a) == Show(b)
    ensures a == b
  {
    ParseShow(a);
    ParseShow(b);
  }

  /** C#'s `ToString("00")`: at least two digits, with a leading minus sign for negatives. */
  function TwoDigits(n: int): (s: string)
    ensures 0 <= n < 100 ==> |s| == 2 && AllDigits(s) && ParseNat(s) == n
  {
    if 0 <= n < 10 then
      assert ['0', DigitChar(n)][..1] == ['0'];
      assert ParseNat(['0']) == 0 by {
        assert ['0'][..0] == [];
      }
      ['0', DigitChar(n)]
    else if -10 < n < 0 then ['-', '0', DigitChar(-n)]
    else
      ParseShow(n);
      assert 10 <= n < 100 ==> Show(n) == ShowNat(n / 10) + [DigitChar(n % 10)];
      Show(n)
  }
}

=== FILE: dicom_viewer.dfy ===
/** The non-GUI logic of the DICOM viewer window: which frame is shown, cine
    playback and its timer, view reset, the metadata search and the
    anonymisation rewrite. File reading and writing, the pixel pipeline and the
    widgets are outside; the text pydicom prints for an element is a parameter. */
module DicomViewer {
  import opened Options
  import opened Numeric

  /** `image_type`: set by loading to "2D" or "M2D"; "3D" is handled by display. */
  datatype ImageType = TwoD | M2D | ThreeD

  /** A data element of the dataset, addressed by its keyword. */
  datatype Element = Element(keyword: string, value: string)

  /** What the image view holds: nothing yet, the whole array, or one frame. */
  datatype Shown = Nothing | Whole | Frame(index: int)

  datatype Viewer = Viewer(
    dataset: Option<seq<Element>>,
    hasPixels: bool,
    imageType: Option<ImageType>,
    playingCine: bool,
    currentFrame: int,
    totalFrames: int,
    timer: Option<int>,
    zoom: real,
    brightness: real,
    contrast: real,
    frameRate: int,
    shown: Shown,
    allTab: string)

  /** The frame-rate spin box accepts 1 to 60 frames per second. */
  const MinFrameRate: int := 1
  const MaxFrameRate: int := 60

  const NoFileText: string := "No file loaded."

  /** `init_variables`: no file, 15 frames per second, neutral view. */
  function Initial(): (v: Viewer)
    ensures Inv(v) && v.dataset.None? && !v.hasPixels && !v.playingCine
    ensures v.frameRate == 15 && v.currentFrame == 0 && v.totalFrames == 0 && v.timer.None?
    ensures v.zoom == 1.0 && v.brightness == 0.0 && v.contrast == 1.0
  {
    Viewer(None, false, None, false, 0, 0, None, 1.0, 0.0, 1.0, 15, Nothing, "")
  }

  /** `int(1000 / fps)`: the timer period in milliseconds. It is integer division,
      and within the spin box's range it lies between 16 and 1000. */
  function Interval(fps: int): (ms: int)
    requires fps >= 1
    ensures ms == 1000 / fps
    ensures fps <= MaxFrameRate ==> 16 <= ms <= 1000
  {
    TruncOfQuotient(1000, fps);
    Trunc(1000.0 / fps as real)
  }

  /** Cine playback runs exactly while the timer runs, and the timer's period
      always matches the current frame rate, which stays in the spin box's range. */
  ghost predicate Inv(v: Viewer) {
    && MinFrameRate <= v.frameRate <= MaxFrameRate
    && (v.playingCine <==> v.timer.Some?)
    && (v.timer.Some? ==> v.timer.value == Interval(v.frameRate))
    && v.currentFrame >= 0
  }

  /** The frame `display_image` picks: a 3-D volume shows its first slice, a
      multi-frame image the requested index clamped to the frame range, and any
      other image is shown whole. */
  function Select(imageType: Option<ImageType>, totalFrames: int, frameIndex: int): (s: Shown)
    ensures imageType == Some(ThreeD) ==> s == Frame(0)
    ensures imageType == Some(M2D) ==> s.Frame? && 0 <= s.index && (totalFrames >= 1 ==> s.index < totalFrames)
    ensures imageType == Some(M2D) && 0 <= frameIndex < totalFrames ==> s == Frame(frameIndex)
    ensures imageType == Some(M2D) && frameIndex >= totalFrames >= 1 ==> s == Frame(totalFrames - 1)
    ensures imageType == Some(M2D) && frameIndex < 0 ==> s == Frame(0)
    ensures imageType == Some(M2D) && totalFrames <= 0 ==> s == Frame(0)
    ensures imageType.None? || imageType == Some(TwoD) ==> s == Whole
  {
    match imageType
    case Some(ThreeD) => Frame(0)
    case Some(M2D) =>
      var upper := if frameIndex < totalFrames - 1 then frameIndex else totalFrames - 1;
      Frame(if 0 < upper then upper else 0)
    case _ => Whole
  }

  /** `display_image`: without pixel data nothing changes. */
  function DisplayImage(v: Viewer, frameIndex: int): (r: Viewer)
    ensures !v.hasPixels ==> r == v
    ensures v.hasPixels ==> r == v.(shown := Select(v.imageType, v.totalFrames, frameIndex))
  {
    if !v.hasPixels then v else v.(shown := Select(v.imageType, v.totalFrames, frameIndex))
  }

  /** `update_frame`, run when the frame slider moves: with pixel data the slider
      value becomes the current frame and is displayed. */
  function UpdateFrame(v: Viewer, value: int): (r: Viewer)
    ensures !v.hasPixels ==> r == v
    ensures v.hasPixels ==> r.currentFrame == value && r.shown == Select(v.imageType, v.totalFrames, value)
    ensures r.playingCine == v.playingCine && r.timer == v.timer && r.frameRate == v.frameRate
    ensures r.totalFrames == v.totalFrames && r.dataset == v.dataset && r.hasPixels == v.hasPixels
  {
    if v.hasPixels then DisplayImage(v.(currentFrame := value), value) else v
  }

  /** `update_cine_frame`, run on every timer tick: the next frame, wrapping from
      the last to the first; single-frame and empty viewers stay put. */
  function UpdateCineFrame(v: Viewer): (r: Viewer)
    requires v.currentFrame >= 0
    ensures !(v.hasPixels && v.totalFrames > 1) ==> r == v
    ensures v.hasPixels && v.totalFrames > 1 ==>
      && 0 <= r.currentFrame < v.totalFrames
      && (v.currentFrame < v.totalFrames ==>
            r.currentFrame == if v.currentFrame + 1 < v.totalFrames then v.currentFrame + 1 else 0)
      && r.shown == (if v.imageType == Some(M2D) then Frame(r.currentFrame) else Select(v.imageType, v.totalFrames, r.currentFrame))
    ensures r.playingCine == v.playingCine && r.timer == v.timer && r.frameRate == v.frameRate
    ensures r.totalFrames == v.totalFrames && r.hasPixels == v.hasPixels && r.imageType == v.imageType
  {
    if v.hasPixels && v.totalFrames > 1 then
      WrapNext(v.currentFrame, v.totalFrames);
      UpdateFrame(v, (v.currentFrame + 1) % v.totalFrames)
    else v
  }

  /** From an in-range frame, the next frame modulo the count is one on, or 0
      from the last frame. */
  lemma WrapNext(c: int, t: int)
    requires 0 <= c && t > 1
    ensures c < t ==> (c + 1) % t == if c + 1 < t then c + 1 else 0
  {
    if c + 1 < t {
      ModUnique(c + 1, t, 0, c + 1);
    } else if c + 1 == t {
      ModUnique(c + 1, t, 1, 0);
    }
  }

  /** `n` timer ticks, one after another. */
  function Ticks(v: Viewer, n: nat): (r: Viewer)
    requires v.currentFrame >= 0
    ensures r.currentFrame >= 0 && r.totalFrames == v.totalFrames && r.hasPixels == v.hasPixels
    decreases n
  {
    if n == 0 then v else Ticks(UpdateCineFrame(v), n - 1)
  }

  /** Cine playback cycles: after `n` ticks from an in-range frame of a
      multi-frame image the frame is `n` further on, modulo the frame count. */
  lemma {:induction false} TicksCycle(v: Viewer, n: nat)
    requires v.hasPixels && v.totalFrames > 1 && 0 <= v.currentFrame < v.totalFrames
    ensures Ticks(v, n).currentFrame == (v.currentFrame + n) % v.totalFrames
    decreases n
  {
    if n > 0 {
      var u := UpdateCineFrame(v);
      assert Ticks(v, n) == Ticks(u, n - 1);
      TicksCycle(u, n - 1);
      var t := v.totalFrames;
      var c := v.currentFrame;
      if c + 1 < t {
        assert u.currentFrame + (n - 1) == c + n;
      } else {
        ModPlusPeriod(n - 1, t);
        assert n - 1 + t == c + n;
      }
    }
  }

  lemma ModPlusPeriod(y: nat, t: int)
    requires t > 0
    ensures (y + t) % t == y % t
  {
    var q := y / t;
    assert y == q * t + y % t;
    assert y + t == (q + 1) * t + y % t;
    ModUnique(y + t, t, q + 1, y % t);
  }

  lemma ModFullTurn(c: nat, t: int)
    requires c < t
    ensures (c + t) % t == c
  {
    ModUnique(c + t, t, 1, c);
  }

  /** Euclidean division is unique: a quotient and remainder in range are the ones. */
  lemma ModUnique(a: int, t: int, q: int, r: int)
    requires t > 0 && 0 <= r < t && a == q * t + r
    ensures a % t == r
  {
    var q0 := a / t;
    var r0 := a % t;
    assert a == q0 * t + r0;
    assert (q - q0) * t == r0 - r;
    if q > q0 {
      MulAtLeast(q - q0, t);
    } else if q < q0 {
      MulAtLeast(q0 - q, t);
    }
  }

  lemma {:induction false} MulAtLeast(k: int, t: int)
    requires k >= 1 && t > 0
    ensures k * t >= t
    decreases k
  {
    if k > 1 {
      MulAtLeast(k - 1, t);
      assert k * t == (k - 1) * t + t;
    }
  }

  /** A full cycle of ticks comes back to the starting frame. */
  lemma {:induction false} FullCycleReturns(v: Viewer)
    requires v.hasPixels && v.totalFrames > 1 && 0 <= v.currentFrame < v.totalFrames
    ensures Ticks(v, v.totalFrames).currentFrame == v.currentFrame
  {
    TicksCycle(v, v.totalFrames);
    ModFullTurn(v.currentFrame, v.totalFrames);
  }

  /** `toggle_cine_play`: refused, with no state change, unless there is pixel
      data with more than one frame; otherwise playback flips, and starting it
      starts the timer at the spin box's rate. */
  function ToggleCinePlay(v: Viewer): (r: Viewer)
    requires v.frameRate >= 1
    ensures !v.hasPixels || v.totalFrames <= 1 ==> r == v
    ensures v.hasPixels && v.totalFrames > 1 ==>
      && r.playingCine == !v.playingCine
      && r.timer == (if v.playingCine then None else Some(Interval(v.frameRate)))
      && r == v.(playingCine := r.playingCine, timer := r.timer)
  {
    if !v.hasPixels || v.totalFrames <= 1 then v
    else if v.playingCine then v.(timer := None, playingCine := false)
    else v.(timer := Some(Interval(v.frameRate)), playingCine := true)
  }

  /** `update_frame_rate`, the definition that takes effect: the rate is stored,
      and a running timer is restarted at the new period. */
  function UpdateFrameRate(v: Viewer, value: int): (r: Viewer)
    requires MinFrameRate <= value <= MaxFrameRate
    ensures r.frameRate == value
    ensures r.timer == (if v.playingCine then Some(Interval(value)) else v.timer)
    ensures r == v.(frameRate := value, timer := r.timer)
  {
    if v.playingCine then v.(frameRate := value, timer := Some(Interval(value)))
    else v.(frameRate := value)
  }

  /** `reset_view`: neutral zoom, brightness and contrast, and frame 0 through the
      slider. */
  function ResetView(v: Viewer): (r: Viewer)
    ensures r.zoom == 1.0 && r.brightness == 0.0 && r.contrast == 1.0 && r.currentFrame == 0
    ensures r.playingCine == v.playingCine && r.timer == v.timer && r.frameRate == v.frameRate
    ensures r.dataset == v.dataset && r.totalFrames == v.totalFrames
    ensures v.hasPixels ==> r.shown == Select(v.imageType, v.totalFrames, 0)
  {
    var u := v.(zoom := 1.0, brightness := 0.0, contrast := 1.0, currentFrame := 0);
    UpdateFrame(u, 0)
  }

  /** What `load_file` gets from the chosen file: nothing, when the dialog is
      cancelled or `dcmread` raises; a dataset whose `pixel_array` raises; or a
      dataset with decodable pixels and its `NumberOfFrames`, if present. */
  datatype FileRead = NothingRead | PixelsUnreadable(dataset: seq<Element>)
                    | Decoded(dataset: seq<Element>, numberOfFrames: Option<int>)

  /** The part of `load_file` that touches the state. With decoded pixels: the
      new dataset, `NumberOfFrames` deciding between multi-frame and single
      images, and frame 0 displayed; playback is not stopped. The dataset is
      assigned before the pixels are read, so when that read raises the viewer
      holds the new dataset with the previous file's pixels, frame count, image
      type and frame. */
  function LoadFile(v: Viewer, read: FileRead): (r: Viewer)
    ensures read.NothingRead? ==> r == v
    ensures read.PixelsUnreadable? ==>
      && r.dataset == Some(read.dataset)
      && r.hasPixels == v.hasPixels && r.totalFrames == v.totalFrames
      && r.imageType == v.imageType && r.currentFrame == v.currentFrame && r.shown == v.shown
    ensures read.Decoded? ==>
      && r.dataset == Some(read.dataset) && r.hasPixels && r.currentFrame == 0
      && r.totalFrames == (if read.numberOfFrames.Some? then read.numberOfFrames.value else 1)
      && r.imageType == Some(if read.numberOfFrames.Some? then M2D else TwoD)
    ensures r.playingCine == v.playingCine && r.timer == v.timer && r.frameRate == v.frameRate
  {
    match read
    case NothingRead => v
    case PixelsUnreadable(ds) => v.(dataset := Some(ds))
    case Decoded(ds, numberOfFrames) =>
      var u := v.(dataset := Some(ds), hasPixels := true,
                  totalFrames := if numberOfFrames.Some? then numberOfFrames.value else 1,
                  imageType := Some(if numberOfFrames.Some? then M2D else TwoD),
                  currentFrame := 0);
      DisplayImage(u, 0)
  }

  /** Every operation keeps the playback invariant. */
  lemma OperationsKeepInv(v: Viewer, value: int, fps: int, read: FileRead)
    requires Inv(v)
    ensures value >= 0 ==> Inv(UpdateFrame(v, value))
    ensures Inv(UpdateCineFrame(v)) && Inv(ToggleCinePlay(v)) && Inv(ResetView(v))
    ensures MinFrameRate <= fps <= MaxFrameRate ==> Inv(UpdateFrameRate(v, fps))
    ensures Inv(LoadFile(v, read))
  {
  }

  /** Loading a single-frame file during playback leaves the timer running, and
      the play button can no longer stop it, because the frame-count guard comes
      before the playing test. The ticks then change nothing. */
  lemma SingleFrameLoadKeepsTimer(v: Viewer, ds: seq<Element>)
    requires Inv(v) && v.playingCine
    ensures var u := LoadFile(v, Decoded(ds, None));
      && u.playingCine && u.timer.Some?
      && ToggleCinePlay(u) == u
      && UpdateCineFrame(u) == u
  {
  }

  // ---------------------------------------------------------------------
  // Metadata search

  /** `str.lower()` on ASCII letters. */
  function LowerChar(c: char): (d: char)
    ensures 'A' <= c <= 'Z' ==> d as int == c as int + 32
    ensures !('A' <= c <= 'Z') ==> d == c
  {
    if 'A' <= c <= 'Z' then (c as int + 32) as char else c
  }

  function Lower(s: string): (r: string)
    ensures |r| == |s|
    ensures forall i :: 0 <= i < |s| ==> r[i] == LowerChar(s[i])
  {
    seq(|s|, i requires 0 <= i < |s| => LowerChar(s[i]))
  }

  predicate OccursAt(t: string, s: string, k: int) {
    0 <= k && k + |t| <= |s| && s[k..k + |t|] == t
  }

  /** Python's `t in s` on strings: a substring search. */
  function Contains(s: string, t: string): (b: bool)
    ensures b <==> exists k :: OccursAt(t, s, k)
    decreases |s|
  {
    if |t| > |s| then
      assert forall k :: !OccursAt(t, s, k);
      false
    else if s[..|t|] == t then
      assert OccursAt(t, s, 0);
      true
    else
      var b := Contains(s[1..], t);
      assert forall k :: OccursAt(t, s[1..], k) <==> OccursAt(t, s, k + 1) by {
        forall k ensures OccursAt(t, s[1..], k) <==> OccursAt(t, s, k + 1) {
          if 0 <= k && k + |t| <= |s| - 1 {
            assert s[1..][k..k + |t|] == s[k + 1..k + 1 + |t|];
          }
        }
      }
      assert b ==> exists k :: OccursAt(t, s, k) by {
        if b {
          var k :| OccursAt(t, s[1..], k);
          assert OccursAt(t, s, k + 1);
        }
      }
      assert (exists k :: OccursAt(t, s, k)) ==> b by {
        if exists k :: OccursAt(t, s, k) {
          var k :| OccursAt(t, s, k);
          assert k != 0;
          assert OccursAt(t, s[1..], k - 1);
        }
      }
      b
  }

  /** The search condition: the lower-cased term occurs in the lower-cased text. */
  predicate Matches(text: string, term: string) {
    Contains(Lower(text), Lower(term))
  }

  /** `a` is `b` with some entries left out, in the same order. */
  ghost predicate Subsequence<T>(a: seq<T>, b: seq<T>)
    decreases |b|
  {
    |a| == 0 || (|b| > 0 && ((a[0] == b[0] && Subsequence(a[1..], b[1..])) || Subsequence(a, b[1..])))
  }

  /** The list comprehension of `filter_all_attributes`: the matching texts in
      their original order, each as often as it appears. */
  function FilterTexts(texts: seq<string>, term: string): (r: seq<string>)
    ensures Subsequence(r, texts)
    ensures forall i :: 0 <= i < |r| ==> Matches(r[i], term)
    ensures forall x :: multiset(r)[x] == (if Matches(x, term) then multiset(texts)[x] else 0)
    decreases |texts|
  {
    if |texts| == 0 then []
    else
      var rest := FilterTexts(texts[1..], term);
      assert texts == [texts[0]] + texts[1..];
      if Matches(texts[0], term) then [texts[0]] + rest else rest
  }

  /** An empty search keeps every text. */
  lemma {:induction false} EmptyTermKeepsAll(texts: seq<string>)
    ensures FilterTexts(texts, "") == texts
    decreases |texts|
  {
    if |texts| > 0 {
      assert OccursAt("", Lower(texts[0]), 0);
      EmptyTermKeepsAll(texts[1..]);
    }
  }

  /** Searching again for the same term changes nothing. */
  lemma {:induction false} FilterIdempotent(texts: seq<string>, term: string)
    ensures FilterTexts(FilterTexts(texts, term), term) == FilterTexts(texts, term)
    decreases |texts|
  {
    if |texts| > 0 {
      FilterIdempotent(texts[1..], term);
    }
  }

  /** `"\n".join(lines)`. */
  function Join(lines: seq<string>): (r: string)
    decreases |lines|
  {
    if |lines| == 0 then ""
    else if |lines| == 1 then lines[0]
    else lines[0] + "\n" + Join(lines[1..])
  }

  /** `str.split("\n")`. */
  function Split(s: string): (r: seq<string>)
    ensures |r| >= 1
    decreases |s|
  {
    if |s| == 0 then [""]
    else if s[0] == '\n' then [""] + Split(s[1..])
    else
      var t := Split(s[1..]);
      [[s[0]] + t[0]] + t[1..]
  }

  predicate NoNewline(s: string) {
    forall i :: 0 <= i < |s| ==> s[i] != '\n'
  }

  lemma {:induction false} SplitLine(a: string, rest: string)
    requires NoNewline(a)
    ensures Split(a + "\n" + rest) == [a] + Split(rest)
    ensures Split(a) == [a]
    decreases |a|
  {
    if |a| == 0 {
      assert a + "\n" + rest == "\n" + rest;
      assert ("\n" + rest)[1..] == rest;
    } else {
      SplitLine(a[1..], rest);
      assert (a + "\n" + rest)[1..] == a[1..] + "\n" + rest;
      assert a == [a[0]] + a[1..];
    }
  }

  /** The joined search result splits back into the matching texts, as long as
      no text spans several lines. */
  lemma {:induction false} SplitJoin(lines: seq<string>)
    requires |lines| > 0
    requires forall i :: 0 <= i < |lines| ==> NoNewline(lines[i])
    ensures Split(Join(lines)) == lines
    decreases |lines|
  {
    SplitLine(lines[0], "");
    if |lines| > 1 {
      SplitJoin(lines[1..]);
      SplitLine(lines[0], Join(lines[1..]));
    }
  }

  /** `filter_all_attributes`: the "All Attributes" tab shows the matching element
      texts one per line, or the no-file notice. `render` is pydicom's `str` of an
      element. */
  function FilterAllAttributes(v: Viewer, term: string, render: Element -> string): (r: Viewer)
    ensures r == v.(allTab := r.allTab)
    ensures v.dataset.None? ==> r.allTab == NoFileText
    ensures v.dataset.Some? && |FilterTexts(Rendered(v.dataset.value, render), term)| == 0 ==> r.allTab == ""
    ensures v.dataset.Some? && SingleLines(v.dataset.value, render)
            && |FilterTexts(Rendered(v.dataset.value, render), term)| > 0
            ==> Split(r.allTab) == FilterTexts(Rendered(v.dataset.value, render), term)
  {
    if v.dataset.None? then v.(allTab := NoFileText)
    else
      SearchTabSplitsBack(v.dataset.value, render, term);
      v.(allTab := Join(FilterTexts(Rendered(v.dataset.value, render), term)))
  }

  /** No element of the dataset prints over several lines. */
  predicate SingleLines(ds: seq<Element>, render: Element -> string) {
    forall i :: 0 <= i < |ds| ==> NoNewline(render(ds[i]))
  }

  /** The lines of the search tab are the matching element texts, when each
      text is a single line. */
  lemma SearchTabSplitsBack(ds: seq<Element>, render: Element -> string, term: string)
    ensures SingleLines(ds, render) && |FilterTexts(Rendered(ds, render), term)| > 0
            ==> Split(Join(FilterTexts(Rendered(ds, render), term))) == FilterTexts(Rendered(ds, render), term)
  {
    var texts := Rendered(ds, render);
    var kept := FilterTexts(texts, term);
    if SingleLines(ds, render) && |kept| > 0 {
      forall i | 0 <= i < |kept| ensures NoNewline(kept[i]) {
        assert multiset(kept)[kept[i]] > 0;
        assert kept[i] in multiset(texts);
        var j :| 0 <= j < |texts| && texts[j] == kept[i];
      }
      SplitJoin(kept);
    }
  }

  function Rendered(ds: seq<Element>, render: Element -> string): (r: seq<string>)
    ensures |r| == |ds| && forall i :: 0 <= i < |ds| ==> r[i] == render(ds[i])
  {
    seq(|ds|, i requires 0 <= i < |ds| => render(ds[i]))
  }

  /** With an empty search and single-line element texts, the tab lists every
      element's text, in dataset order. */
  lemma EmptySearchListsAll(v: Viewer, render: Element -> string)
    requires v.dataset.Some? && |v.dataset.value| > 0
    requires forall e :: NoNewline(render(e))
    ensures Split(FilterAllAttributes(v, "", render).allTab) == Rendered(v.dataset.value, render)
  {
    var texts := Rendered(v.dataset.value, render);
    EmptyTermKeepsAll(texts);
    SplitJoin(texts);
  }

  // ---------------------------------------------------------------------
  // Anonymisation

  /** The fifteen identifying fields `anonymize` rewrites, in its order. */
  const Fields: seq<string> := [
    "PatientName", "PatientID", "PatientBirthDate", "AccessionNumber",
    "StudyInstanceUID", "SeriesInstanceUID", "SOPInstanceUID",
    "PatientAddress", "PatientPhoneNumbers", "OtherPatientIDs",
    "ReferringPhysicianName", "PerformingPhysicianName",
    "PhysiciansOfRecord", "InstitutionName", "InstitutionAddress"]

  /** `string.ascii_letters + string.digits`. */
  predicate IsAlphanumeric(c: char) {
    'a' <= c <= 'z' || 'A' <= c <= 'Z' || '0' <= c <= '9'
  }

  /** A value `random.choices(..., k=8)` can produce. */
  predicate IsSuffix(s: string) {
    |s| == 8 && forall i :: 0 <= i < 8 ==> IsAlphanumeric(s[i])
  }

  function FieldIndex(keyword: string): (r: Option<nat>)
    ensures r.Some? <==> keyword in Fields
    ensures r.Some? ==> r.value < |Fields| && Fields[r.value] == keyword
    ensures r.Some? ==> forall j :: 0 <= j < r.value ==> Fields[j] != keyword
  {
    FieldIndexFrom(keyword, 0)
  }

  function FieldIndexFrom(keyword: string, i: nat): (r: Option<nat>)
    requires i <= |Fields|
    ensures r.Some? <==> keyword in Fields[i..]
    ensures r.Some? ==> i <= r.value < |Fields| && Fields[r.value] == keyword
    ensures r.Some? ==> forall j :: i <= j < r.value ==> Fields[j] != keyword
    decreases |Fields| - i
  {
    if i == |Fields| then None
    else if Fields[i] == keyword then Some(i)
    else
      assert Fields[i..] == [Fields[i]] + Fields[i + 1..];
      FieldIndexFrom(keyword, i + 1)
  }

  /** How `anonymize` ends: no file, no prefix, every listed field rewritten, or
      an exception from one field's `setattr` after the fields before it were
      rewritten. */
  datatype AnonymizeOutcome = NoFile | NoPrefix | Rewritten | Failed

  /** `keyword` is one of the first `limit` listed fields. */
  predicate ListedBefore(keyword: string, limit: nat) {
    exists i :: 0 <= i < limit && i < |Fields| && Fields[i] == keyword
  }

  /** Some element of the dataset carries `keyword` (`field in dicom_file`). */
  predicate Present(ds: seq<Element>, keyword: string) {
    exists j :: 0 <= j < |ds| && ds[j].keyword == keyword
  }

  /** One element after the rewrite loop has handled the first `limit` fields:
      such a field gets the prefix and its field's random suffix, anything else
      is kept. */
  function Scrub(e: Element, prefix: string, suffixes: seq<string>, limit: nat): (r: Element)
    requires |suffixes| == |Fields| && forall i :: 0 <= i < |suffixes| ==> IsSuffix(suffixes[i])
    ensures r.keyword == e.keyword
    ensures !ListedBefore(e.keyword, limit) ==> r == e
    ensures ListedBefore(e.keyword, limit) ==>
      && |r.value| == |prefix| + 8
      && r.value[..|prefix|] == prefix
      && IsSuffix(r.value[|prefix|..])
  {
    match FieldIndex(e.keyword)
    case None => e
    case Some(i) =>
      if i < limit then
        assert IsSuffix(suffixes[i]);
        var r := e.(value := prefix + suffixes[i]);
        assert r.value[..|prefix|] == prefix;
        assert r.value[|prefix|..] == suffixes[i];
        r
      else
        assert !ListedBefore(e.keyword, limit);
        e
  }

  /** `anonymize`. It stops with an error when no file is loaded or the dataset
      is empty, and when the prefix dialog is cancelled or left empty. Otherwise it
      rewrites each listed field that is present, in the list's order; the
      dataset in memory keeps the rewrite whether or not the copy is then saved.
      `suffixes[i]` is the random suffix drawn for `Fields[i]`, and `failAt` is
      the index of the field whose `setattr` raises, if any: when that field is
      present the loop stops there, with the fields before it already rewritten. */
  function Anonymize(v: Viewer, prefix: Option<string>, suffixes: seq<string>, failAt: Option<nat>): (r: (Viewer, AnonymizeOutcome))
    requires |suffixes| == |Fields| && forall i :: 0 <= i < |suffixes| ==> IsSuffix(suffixes[i])
    ensures v.dataset.None? || |v.dataset.value| == 0 ==> r == (v, NoFile)
    ensures v.dataset.Some? && |v.dataset.value| > 0 && (prefix.None? || |prefix.value| == 0) ==> r == (v, NoPrefix)
    ensures r.1 == Failed <==>
      && v.dataset.Some? && |v.dataset.value| > 0 && prefix.Some? && |prefix.value| > 0
      && failAt.Some? && failAt.value < |Fields| && Present(v.dataset.value, Fields[failAt.value])
    ensures r.1 == Rewritten <==>
      && v.dataset.Some? && |v.dataset.value| > 0 && prefix.Some? && |prefix.value| > 0
      && !(failAt.Some? && failAt.value < |Fields| && Present(v.dataset.value, Fields[failAt.value]))
    ensures r.1 == Rewritten ==>
      && v.dataset.Some? && prefix.Some? && |prefix.value| > 0
      && r.0 == v.(dataset := r.0.dataset)
      && r.0.dataset.Some?
      && |r.0.dataset.value| == |v.dataset.value|
      && forall j :: 0 <= j < |v.dataset.value| ==>
           var before := v.dataset.value[j];
           var after := r.0.dataset.value[j];
           && after.keyword == before.keyword
           && (before.keyword !in Fields ==> after == before)
           && (before.keyword in Fields ==>
                 |after.value| == |prefix.value| + 8
                 && after.value[..|prefix.value|] == prefix.value
                 && IsSuffix(after.value[|prefix.value|..]))
    ensures r.1 == Failed ==>
      && r.0 == v.(dataset := r.0.dataset)
      && r.0.dataset.Some?
      && |r.0.dataset.value| == |v.dataset.value|
      && forall j :: 0 <= j < |v.dataset.value| ==>
           var before := v.dataset.value[j];
           var after := r.0.dataset.value[j];
           && after.keyword == before.keyword
           && (!ListedBefore(before.keyword, failAt.value) ==> after == before)
           && (ListedBefore(before.keyword, failAt.value) ==>
                 |after.value| == |prefix.value| + 8
                 && after.value[..|prefix.value|] == prefix.value
                 && IsSuffix(after.value[|prefix.value|..]))
  {
    if v.dataset.None? || |v.dataset.value| == 0 then (v, NoFile)
    else if prefix.None? || |prefix.value| == 0 then (v, NoPrefix)
    else
      var p := prefix.value;
      var ds := v.dataset.value;
      var failed := failAt.Some? && failAt.value < |Fields| && Present(ds, Fields[failAt.value]);
      var limit := if failed then failAt.value else |Fields|;
      var out := seq(|ds|, j requires 0 <= j < |ds| => Scrub(ds[j], p, suffixes, limit));
      assert forall k :: ListedBefore(k, |Fields|) <==> k in Fields;
      (v.(dataset := Some(out)), if failed then Failed else Rewritten)
  }

  /** Anonymising twice with the same prefix and suffixes gives the same dataset
      as once: the rewrite does not depend on the old values. */
  lemma AnonymizeIdempotent(v: Viewer, prefix: string, suffixes: seq<string>)
    requires |suffixes| == |Fields| && forall i :: 0 <= i < |suffixes| ==> IsSuffix(suffixes[i])
    requires v.dataset.Some? && |v.dataset.value| > 0 && |prefix| > 0
    ensures var once := Anonymize(v, Some(prefix), suffixes, None);
      && once.1 == Rewritten
      && Anonymize(once.0, Some(prefix), suffixes, None) == once
  {
    var once := Anonymize(v, Some(prefix), suffixes, None);
    var twice := Anonymize(once.0, Some(prefix), suffixes, None);
    var ds := once.0.dataset.value;
    assert twice.0.dataset.value == ds by {
      forall j | 0 <= j < |ds| ensures twice.0.dataset.value[j] == ds[j] {
        var e := v.dataset.value[j];
        match FieldIndex(e.keyword) {
          case None =>
          case Some(i) =>
        }
      }
    }
  }
}

=== FILE: game_manager.dfy ===
/** The round lifecycle of the organ-puzzle `GameManager`: start, the seven-minute
    countdown, the win and timeout endings, and restart. Unity objects are reduced
    to the flags the manager reads and writes; `Time.deltaTime` is an input. */
module GameManager {
  import opened Options
  import opened Numeric
  import opened Decimal

  /** `maxTime`: 421 seconds, so the countdown starts just above 7:00. */
  const MaxTime: real := 421.0

  const WinMessage: string := "Congratulations! You completed the puzzle!"
  const TimeoutMessage: string := "Time's up! Better luck next time."
  const InitialTimerText: string := "Time: 07:00"

  /** A puzzle piece: whether its game object is active, and the `isSnapped` flag
      of its `Snapping` component when it has one. */
  datatype Piece = Piece(active: bool, snapping: Option<bool>)

  /** The manager's fields, the static `isGameActive`, and the visible state of the
      UI objects it drives. */
  datatype Game = Game(
    timer: real,
    gameStarted: bool,
    isGameActive: bool,
    pieces: seq<Piece>,
    startButtonShown: bool,
    restartButtonShown: bool,
    message: string,
    messageShown: bool,
    timerText: string)

  /** The scene as loaded, before `Start` runs: field initialisers only. */
  function Loaded(pieces: seq<Piece>, startButtonShown: bool, restartButtonShown: bool): (g: Game)
    ensures g.timer == 0.0 && !g.gameStarted && g.isGameActive
    ensures g.pieces == pieces
  {
    Game(0.0, false, true, pieces, startButtonShown, restartButtonShown, "", false, "")
  }

  function SetActive(pieces: seq<Piece>, on: bool): (r: seq<Piece>)
    ensures |r| == |pieces|
    ensures forall i :: 0 <= i < |r| ==> r[i] == pieces[i].(active := on)
  {
    seq(|pieces|, i requires 0 <= i < |pieces| => pieces[i].(active := on))
  }

  /** Unity's `Start`: pieces hidden, restart button and message hidden, the
      timer text at its initial value. */
  function Start(g: Game): (r: Game)
    ensures !r.restartButtonShown && !r.messageShown && r.message == ""
    ensures r.timerText == InitialTimerText
    ensures |r.pieces| == |g.pieces|
    ensures forall i :: 0 <= i < |r.pieces| ==> !r.pieces[i].active && r.pieces[i].snapping == g.pieces[i].snapping
    ensures r.timer == g.timer && r.gameStarted == g.gameStarted && r.isGameActive == g.isGameActive
    ensures r.startButtonShown == g.startButtonShown
  {
    g.(pieces := SetActive(g.pieces, false), restartButtonShown := false,
       message := "", messageShown := false, timerText := InitialTimerText)
  }

  /** `StartGame`: the round begins with a zero timer and every piece active. The
      message and timer text are left as they were. */
  function StartGame(g: Game): (r: Game)
    ensures r.gameStarted && r.isGameActive && r.timer == 0.0
    ensures !r.startButtonShown
    ensures |r.pieces| == |g.pieces|
    ensures forall i :: 0 <= i < |r.pieces| ==> r.pieces[i].active && r.pieces[i].snapping == g.pieces[i].snapping
    ensures r.restartButtonShown == g.restartButtonShown
    ensures r.message == g.message && r.messageShown == g.messageShown && r.timerText == g.timerText
  {
    g.(startButtonShown := false, pieces := SetActive(g.pieces, true),
       gameStarted := true, isGameActive := true, timer := 0.0)
  }

  /** Every piece that has a `Snapping` component is snapped; others do not count. */
  predicate AllSnapped(pieces: seq<Piece>) {
    forall i | 0 <= i < |pieces| :: pieces[i].snapping.Some? ==> pieces[i].snapping.value
  }

  /** `AllPiecesSnapped`: scans the pieces and stops at the first unsnapped one. */
  method AllPiecesSnapped(pieces: seq<Piece>) returns (b: bool)
    ensures b == AllSnapped(pieces)
    ensures |pieces| == 0 ==> b
  {
    var k := 0;
    while k < |pieces|
      invariant 0 <= k <= |pieces|
      invariant forall i :: 0 <= i < k && pieces[i].snapping.Some? ==> pieces[i].snapping.value
    {
      if pieces[k].snapping.Some? && !pieces[k].snapping.value {
        return false;
      }
      k := k + 1;
    }
    return true;
  }

  /** The whole minutes and the `fmod` seconds of the remaining time, both floored. */
  function Minutes(t: real): int {
    ((MaxTime - t) / 60.0).Floor
  }

  function Seconds(t: real): int {
    FMod(MaxTime - t, 60.0).Floor
  }

  /** `UpdateTimerUI`: "Time: mm:ss" for the time left. While the timer is within
      the round the text is eleven characters, the seconds are below 60, and the
      two fields read back as the whole seconds remaining. */
  function TimerText(t: real): (r: string)
    ensures 0.0 <= t <= MaxTime ==>
      && |r| == 11 && r[..6] == "Time: " && r[8] == ':'
      && AllDigits(r[6..8]) && AllDigits(r[9..11])
      && ParseNat(r[9..11]) < 60
      && ParseNat(r[6..8]) * 60 + ParseNat(r[9..11]) == (MaxTime - t).Floor
  {
    var m := Minutes(t);
    var s := Seconds(t);
    var r := "Time: " + TwoDigits(m) + ":" + TwoDigits(s);
    if 0.0 <= t <= MaxTime then
      TimerFields(t);
      assert r[6..8] == TwoDigits(m) && r[9..11] == TwoDigits(s);
      r
    else r
  }

  lemma TimerFields(t: real)
    requires 0.0 <= t <= MaxTime
    ensures 0 <= Minutes(t) <= 7 && 0 <= Seconds(t) < 60
    ensures Minutes(t) * 60 + Seconds(t) == (MaxTime - t).Floor
  {
    var a := MaxTime - t;
    FModSixty(a);
    var m := Minutes(t);
    var s := Seconds(t);
    var f := FMod(a, 60.0);
    assert s as real <= f < s as real + 1.0;
    assert a == 60.0 * (m as real) + f;
    assert (m * 60 + s) as real <= a < (m * 60 + s) as real + 1.0;
  }

  /** During the first second of a round the computed text equals the initial
      "Time: 07:00", although 421 seconds are 7:01. */
  lemma FirstSecondShowsSevenMinutes(t: real)
    requires 0.0 < t <= 1.0
    ensures TimerText(t) == InitialTimerText
  {
    TimerFields(t);
    assert (MaxTime - t).Floor == 420;
    assert Minutes(t) == 7 && Seconds(t) == 0;
  }

  /** `TimerEnded`: the round stops, the game becomes inactive, and the message
      chosen by `success` is shown with the restart button. */
  function TimerEnded(g: Game, success: bool): (r: Game)
    ensures !r.gameStarted && !r.isGameActive
    ensures r.message == (if success then WinMessage else TimeoutMessage)
    ensures r.messageShown && r.restartButtonShown
    ensures r.timer == g.timer && r.pieces == g.pieces && r.timerText == g.timerText
    ensures r.startButtonShown == g.startButtonShown
  {
    g.(gameStarted := false, isGameActive := false,
       message := if success then WinMessage else TimeoutMessage,
       messageShown := true, restartButtonShown := true)
  }

  /** Unity's per-frame `Update`. The timer advances only while it is below
      `maxTime - 1`; otherwise the round times out. The all-snapped check runs
      afterwards in the same frame, so a win overrides a simultaneous timeout. */
  function Update(g: Game, dt: real): (r: Game)
    ensures !g.gameStarted ==> r == g
    ensures g.gameStarted ==>
      && r.pieces == g.pieces
      && r.startButtonShown == g.startButtonShown
      && (r.gameStarted <==> g.timer < MaxTime - 1.0 && !AllSnapped(g.pieces))
      && r.timer == (if g.timer < MaxTime - 1.0 then g.timer + dt else g.timer)
      && r.timerText == (if g.timer < MaxTime - 1.0 then TimerText(g.timer + dt) else g.timerText)
    ensures g.gameStarted && r.gameStarted ==>
      && r.isGameActive == g.isGameActive
      && r.timerText == TimerText(r.timer)
      && r.message == g.message && r.messageShown == g.messageShown
      && r.restartButtonShown == g.restartButtonShown
    ensures g.gameStarted && !r.gameStarted ==>
      && !r.isGameActive && r.messageShown && r.restartButtonShown
      && r.message == (if AllSnapped(g.pieces) then WinMessage else TimeoutMessage)
  {
    if !g.gameStarted then g
    else
      var g1 :=
        if g.timer < MaxTime - 1.0 then g.(timer := g.timer + dt, timerText := TimerText(g.timer + dt))
        else TimerEnded(g, false);
      if AllSnapped(g1.pieces) then TimerEnded(g1, true) else g1
  }

  /** `RestartGame`: back to the pre-round screen with a zero timer. The static
      `isGameActive` is not reset here; only `StartGame` sets it again. The
      randomizer's re-scatter moves pieces and is outside this model. */
  function RestartGame(g: Game): (r: Game)
    ensures !r.gameStarted && r.timer == 0.0
    ensures r.isGameActive == g.isGameActive
    ensures !r.restartButtonShown && r.startButtonShown && !r.messageShown
    ensures r.timerText == InitialTimerText && r.message == g.message
    ensures |r.pieces| == |g.pieces|
    ensures forall i :: 0 <= i < |r.pieces| ==> !r.pieces[i].active && r.pieces[i].snapping == g.pieces[i].snapping
  {
    g.(gameStarted := false, timer := 0.0, restartButtonShown := false,
       timerText := InitialTimerText, pieces := SetActive(g.pieces, false),
       startButtonShown := true, messageShown := false)
  }

  /** While a round runs the game is active, the start button is hidden and
      every piece is active. */
  ghost predicate RoundInv(g: Game) {
    g.gameStarted ==>
      && g.isGameActive && !g.startButtonShown
      && forall i :: 0 <= i < |g.pieces| ==> g.pieces[i].active
  }

  /** Every operation keeps the invariant; `Start` runs once, before any round. */
  lemma OperationsKeepRoundInv(g: Game, dt: real, success: bool)
    ensures !g.gameStarted ==> RoundInv(Start(g))
    ensures RoundInv(StartGame(g)) && RoundInv(TimerEnded(g, success)) && RoundInv(RestartGame(g))
    ensures RoundInv(g) ==> RoundInv(Update(g, dt))
  {
  }

  /** One frame as the manager sees it: `Time.deltaTime`, and the `isSnapped`
      flags of the pieces' `Snapping` components when the manager's `Update`
      runs, which the snapping scripts may have changed since the last frame. */
  datatype Frame = Frame(dt: real, snapped: seq<bool>)

  /** The pieces with the frame's snapped flags: `flags[i]` is the flag of piece
      `i` when it has a `Snapping` component; pieces beyond the flags keep theirs. */
  function WithSnapped(pieces: seq<Piece>, flags: seq<bool>): (r: seq<Piece>)
    ensures |r| == |pieces|
    ensures forall i :: 0 <= i < |r| ==> r[i].active == pieces[i].active && r[i].snapping.Some? == pieces[i].snapping.Some?
    ensures forall i :: 0 <= i < |r| && i < |flags| && pieces[i].snapping.Some? ==> r[i].snapping == Some(flags[i])
    ensures forall i :: 0 <= i < |r| && |flags| <= i ==> r[i] == pieces[i]
  {
    seq(|pieces|, i requires 0 <= i < |pieces| =>
      if i < |flags| && pieces[i].snapping.Some? then pieces[i].(snapping := Some(flags[i])) else pieces[i])
  }

  /** One frame: the flags are read, then the manager's `Update` runs. */
  function Tick(g: Game, f: Frame): (r: Game)
    ensures RoundInv(g) ==> RoundInv(r)
    ensures !g.gameStarted ==> r == g.(pieces := r.pieces)
    ensures |r.pieces| == |g.pieces|
  {
    var g1 := g.(pieces := WithSnapped(g.pieces, f.snapped));
    OperationsKeepRoundInv(g1, f.dt, false);
    Update(g1, f.dt)
  }

  /** A frame in which every piece with a `Snapping` component reports snapped
      ends a running round with the win message, whatever the timer shows. */
  lemma WinWhenAllSnapped(g: Game, f: Frame)
    requires g.gameStarted && |f.snapped| >= |g.pieces|
    requires forall i :: 0 <= i < |f.snapped| ==> f.snapped[i]
    ensures !Tick(g, f).gameStarted && !Tick(g, f).isGameActive
    ensures Tick(g, f).message == WinMessage && Tick(g, f).messageShown
  {
    assert AllSnapped(WithSnapped(g.pieces, f.snapped));
  }

  /** A frame in which some piece with a `Snapping` component is not snapped
      keeps a running round going while the timer is below `maxTime - 1`. */
  lemma UnsnappedPieceKeepsRound(g: Game, f: Frame, k: nat)
    requires g.gameStarted && g.timer < MaxTime - 1.0
    requires k < |g.pieces| && k < |f.snapped| && g.pieces[k].snapping.Some? && !f.snapped[k]
    ensures Tick(g, f).gameStarted && Tick(g, f).timer == g.timer + f.dt
  {
    assert WithSnapped(g.pieces, f.snapped)[k].snapping == Some(false);
  }

  /** A sequence of frames. */
  function Run(g: Game, frames: seq<Frame>): (r: Game)
    ensures !g.gameStarted ==> r == g.(pieces := r.pieces)
    ensures |r.pieces| == |g.pieces|
    ensures RoundInv(g) ==> RoundInv(r)
    decreases |frames|
  {
    if |frames| == 0 then g
    else Run(Tick(g, frames[0]), frames[1..])
  }

  lemma {:induction false} RunAppend(g: Game, a: seq<Frame>, b: seq<Frame>)
    ensures Run(g, a + b) == Run(Run(g, a), b)
    decreases |a|
  {
    if |a| > 0 {
      assert (a + b)[0] == a[0];
      assert (a + b)[1..] == a[1..] + b;
      RunAppend(Tick(g, a[0]), a[1..], b);
    } else {
      assert a + b == b;
    }
  }

  /** With frames of at least a second each, a round still running after `n`
      frames has a timer at least `n` seconds further on. */
  lemma {:induction false} RunningTimerGrows(g: Game, frames: seq<Frame>)
    requires forall i :: 0 <= i < |frames| ==> frames[i].dt >= 1.0
    ensures Run(g, frames).gameStarted ==> Run(g, frames).timer >= g.timer + |frames| as real
    decreases |frames|
  {
    if |frames| > 0 {
      var g1 := Tick(g, frames[0]);
      RunningTimerGrows(g1, frames[1..]);
      if Run(g, frames).gameStarted {
        assert g1.gameStarted;
        assert g1.timer == g.timer + frames[0].dt;
      }
    }
  }

  /** Every round that starts from a non-negative timer ends within 421 frames
      of at least a second each, by timeout if not by a win. */
  lemma RoundEnds(g: Game, frames: seq<Frame>)
    requires g.timer >= 0.0 && |frames| >= 421
    requires forall i :: 0 <= i < |frames| ==> frames[i].dt >= 1.0
    ensures !Run(g, frames).gameStarted
  {
    var a := frames[..420];
    var b := frames[420..];
    assert frames == a + b;
    RunAppend(g, a, b);
    RunningTimerGrows(g, a);
    var h := Run(g, a);
    if h.gameStarted {
      assert h.timer >= MaxTime - 1.0;
      assert !Tick(h, b[0]).gameStarted;
      assert Run(h, b) == Run(Tick(h, b[0]), b[1..]);
    }
  }
}

=== FILE: movement.dfy ===
/** The drag lock of the organ-puzzle `PuzzlePieceMovement` component: at most one
    piece follows the mouse, highlighting follows the game's active flag, and the
    keyboard gives per-axis rotation and translation amounts. Screen-to-world
    conversion and the engine's `Rotate`/`Translate` are outside; the mouse's world
    point is an input and the per-frame amounts are the output. */
module PieceMovement {
  import opened Options
  import Snapping

  type Vec3 = Snapping.Vec3

  datatype Color = Color(r: real, g: real, b: real, a: real)

  /** `Color.yellow`, the default highlight. */
  const Yellow: Color := Color(1.0, 0.92, 0.016, 1.0)

  /** Default `rotationSpeed` and `movementSpeed`. */
  const DefaultRotationSpeed: real := 100.0
  const DefaultMovementSpeed: real := 5.0

  /** One piece: the `isSnapped` flag of its `Snapping` component (when present),
      its renderer's colour (when it has a renderer), the colour saved at `Start`,
      the drag state and its position. */
  datatype Piece = Piece(
    snapping: Option<bool>,
    color: Option<Color>,
    originalColor: Color,
    highlightColor: Color,
    isBeingDragged: bool,
    isSelected: bool,
    offset: Vec3,
    position: Vec3,
    rotationSpeed: real,
    movementSpeed: real)

  /** All pieces and the static `currentlyDraggedPiece`, as an index. */
  datatype World = World(pieces: seq<Piece>, current: Option<nat>)

  function Add(a: Vec3, b: Vec3): (r: Vec3)
    ensures r.x - b.x == a.x && r.y - b.y == a.y && r.z - b.z == a.z
  {
    Snapping.Vec3(a.x + b.x, a.y + b.y, a.z + b.z)
  }

  function Sub(a: Vec3, b: Vec3): (r: Vec3)
    ensures Add(r, b) == a
  {
    Snapping.Vec3(a.x - b.x, a.y - b.y, a.z - b.z)
  }

  /** `Start`: a piece with a renderer remembers its current colour. */
  function StartPiece(p: Piece): (r: Piece)
    ensures p.color.Some? ==> r.originalColor == p.color.value
    ensures p.color.None? ==> r == p
    ensures r.color == p.color && r.isBeingDragged == p.isBeingDragged
  {
    if p.color.Some? then p.(originalColor := p.color.value) else p
  }

  /** `HighlightPiece`: recolours only when there is a renderer and the game is
      active; otherwise the colour stays as it was. */
  function Highlight(p: Piece, on: bool, gameActive: bool): (r: Piece)
    ensures r == p.(color := r.color)
    ensures p.color.Some? && gameActive ==> r.color == Some(if on then p.highlightColor else p.originalColor)
    ensures p.color.None? || !gameActive ==> r.color == p.color
  {
    if p.color.Some? && gameActive then
      p.(color := Some(if on then p.highlightColor else p.originalColor))
    else p
  }

  /** `OnMouseDown` on piece `i`. A piece is picked up only when it has a
      `Snapping` component, is not snapped and no piece holds the lock; the
      offset keeps the piece where it is relative to the mouse. */
  function OnMouseDown(w: World, i: nat, mouse: Vec3, gameActive: bool): (r: World)
    requires i < |w.pieces|
    ensures |r.pieces| == |w.pieces|
    ensures forall j :: 0 <= j < |r.pieces| && j != i ==> r.pieces[j] == w.pieces[j]
    ensures var p := w.pieces[i];
      if p.snapping == Some(false) && w.current.None? then
        && r.current == Some(i)
        && r.pieces[i].isBeingDragged && r.pieces[i].isSelected
        && Add(mouse, r.pieces[i].offset) == p.position
        && r.pieces[i] == Highlight(p, true, gameActive).(isBeingDragged := true, isSelected := true, offset := r.pieces[i].offset)
      else r == w
  {
    var p := w.pieces[i];
    if p.snapping.Some? && !p.snapping.value && w.current.None? then
      var q := Highlight(p.(isBeingDragged := true, offset := Sub(p.position, mouse), isSelected := true), true, gameActive);
      World(w.pieces[i := q], Some(i))
    else w
  }

  /** `OnMouseUp` on piece `i`: only the piece being dragged lets go, and it then
      empties the shared slot and drops its highlight. */
  function OnMouseUp(w: World, i: nat, gameActive: bool): (r: World)
    requires i < |w.pieces|
    ensures |r.pieces| == |w.pieces|
    ensures forall j :: 0 <= j < |r.pieces| && j != i ==> r.pieces[j] == w.pieces[j]
    ensures w.pieces[i].isBeingDragged ==>
      && r.current.None? && !r.pieces[i].isBeingDragged
      && r.pieces[i] == Highlight(w.pieces[i], false, gameActive).(isBeingDragged := false)
    ensures !w.pieces[i].isBeingDragged ==> r == w
  {
    var p := w.pieces[i];
    if p.isBeingDragged then
      World(w.pieces[i := Highlight(p.(isBeingDragged := false), false, gameActive)], None)
    else w
  }

  /** The lock: a piece is dragged exactly when it is the one in the shared slot. */
  ghost predicate Inv(w: World) {
    && (w.current.Some? ==> w.current.value < |w.pieces|)
    && forall j :: 0 <= j < |w.pieces| ==> (w.pieces[j].isBeingDragged <==> w.current == Some(j))
  }

  lemma InvMeansOneDragged(w: World, i: nat, j: nat)
    requires Inv(w) && i < |w.pieces| && j < |w.pieces|
    requires w.pieces[i].isBeingDragged && w.pieces[j].isBeingDragged
    ensures i == j
  {
    assert w.current == Some(i) && w.current == Some(j);
  }

  lemma MouseEventsKeepInv(w: World, i: nat, mouse: Vec3, gameActive: bool)
    requires Inv(w) && i < |w.pieces|
    ensures Inv(OnMouseDown(w, i, mouse, gameActive))
    ensures Inv(OnMouseUp(w, i, gameActive))
  {
    var d := OnMouseDown(w, i, mouse, gameActive);
    if d != w {
      forall j | 0 <= j < |d.pieces|
        ensures d.pieces[j].isBeingDragged <==> d.current == Some(j)
      {
        if j != i {
          assert !w.pieces[j].isBeingDragged;
        }
      }
    }
  }

  /** The keys held this frame. */
  datatype Keys = Keys(
    rotateX: bool, rotateY: bool, rotateZClockwise: bool, rotateZCounterClockwise: bool,
    moveXPositive: bool, moveXNegative: bool,
    moveYPositive: bool, moveYNegative: bool,
    moveZPositive: bool, moveZNegative: bool)

  /** One axis driven by a pair of keys: the positive key wins when both are held. */
  function AxisStep(positive: bool, negative: bool, amount: real): (r: real)
    ensures positive ==> r == amount
    ensures !positive && negative ==> r == -amount
    ensures !positive && !negative ==> r == 0.0
  {
    if positive then amount else if negative then -amount else 0.0
  }

  /** `HandleRotation`: X and Y each turn while their key is held, independently;
      the clockwise Z key beats the counter-clockwise one. */
  function Rotation(k: Keys, speed: real, dt: real): (r: Vec3)
    ensures r.x == (if k.rotateX then speed * dt else 0.0)
    ensures r.y == (if k.rotateY then speed * dt else 0.0)
    ensures r.z == AxisStep(k.rotateZClockwise, k.rotateZCounterClockwise, speed * dt)
  {
    Snapping.Vec3(AxisStep(k.rotateX, false, speed * dt), AxisStep(k.rotateY, false, speed * dt),
         AxisStep(k.rotateZClockwise, k.rotateZCounterClockwise, speed * dt))
  }

  /** `HandleMovement`: on each axis the positive key beats the negative one. */
  function Translation(k: Keys, speed: real, dt: real): (r: Vec3)
    ensures r.x == AxisStep(k.moveXPositive, k.moveXNegative, speed * dt)
    ensures r.y == AxisStep(k.moveYPositive, k.moveYNegative, speed * dt)
    ensures r.z == AxisStep(k.moveZPositive, k.moveZNegative, speed * dt)
  {
    Snapping.Vec3(AxisStep(k.moveXPositive, k.moveXNegative, speed * dt),
         AxisStep(k.moveYPositive, k.moveYNegative, speed * dt),
         AxisStep(k.moveZPositive, k.moveZNegative, speed * dt))
  }

  /** Holding the negative key as well as the positive one changes nothing, on
      every translation axis and for the Z rotation. */
  lemma PositiveKeyMasksNegative(k: Keys, held: bool, speed: real, dt: real)
    ensures k.moveXPositive ==> Translation(k.(moveXNegative := held), speed, dt) == Translation(k, speed, dt)
    ensures k.moveYPositive ==> Translation(k.(moveYNegative := held), speed, dt) == Translation(k, speed, dt)
    ensures k.moveZPositive ==> Translation(k.(moveZNegative := held), speed, dt) == Translation(k, speed, dt)
    ensures k.rotateZClockwise ==> Rotation(k.(rotateZCounterClockwise := held), speed, dt) == Rotation(k, speed, dt)
  {
  }

  /** The X and Y rotations are separate `if`s: either key leaves the other axis alone. */
  lemma RotationAxesIndependent(k: Keys, held: bool, speed: real, dt: real)
    ensures Rotation(k.(rotateY := held), speed, dt).x == Rotation(k, speed, dt).x
    ensures Rotation(k.(rotateX := held), speed, dt).y == Rotation(k, speed, dt).y
    ensures k.rotateX && k.rotateY ==> Rotation(k, speed, dt).x == Rotation(k, speed, dt).y == speed * dt
  {
  }

  /** What one frame of `Update` asks the engine to do with the piece. */
  datatype Manipulation = Manipulation(target: Vec3, rotate: Option<Vec3>, translate: Option<Vec3>)

  /** `Update` of piece `i`: nothing unless it is dragged and the game is active;
      then it follows the mouse, and it turns and moves by the held keys only if it
      is also the piece in the shared slot. */
  function Update(w: World, i: nat, mouse: Vec3, k: Keys, dt: real, gameActive: bool): (r: Option<Manipulation>)
    requires i < |w.pieces|
    ensures r.Some? <==> w.pieces[i].isBeingDragged && gameActive
    ensures r.Some? ==> r.value.target == Add(mouse, w.pieces[i].offset)
    ensures r.Some? ==> (r.value.rotate.Some? <==> w.current == Some(i))
    ensures r.Some? ==> r.value.rotate.Some? == r.value.translate.Some?
    ensures r.Some? && r.value.rotate.Some? ==>
      && r.value.rotate.value == Rotation(k, w.pieces[i].rotationSpeed, dt)
      && r.value.translate.value == Translation(k, w.pieces[i].movementSpeed, dt)
  {
    var p := w.pieces[i];
    if p.isBeingDragged && gameActive then
      var target := Add(mouse, p.offset);
      if w.current == Some(i) then
        Some(Manipulation(target, Some(Rotation(k, p.rotationSpeed, dt)), Some(Translation(k, p.movementSpeed, dt))))
      else
        Some(Manipulation(target, None, None))
    else None
  }

  /** Under the lock the dragged piece is always the one in the slot, so the key
      handling is never skipped for it. */
  lemma DraggedPieceGetsKeys(w: World, i: nat, mouse: Vec3, k: Keys, dt: real)
    requires Inv(w) && i < |w.pieces| && w.pieces[i].isBeingDragged
    ensures Update(w, i, mouse, k, dt, true).Some?
    ensures Update(w, i, mouse, k, dt, true).value.rotate.Some?
  {
  }

  /** If the mouse has not moved since the pick-up, the piece's target is where
      it already was: the offset keeps it from jumping to the cursor. */
  lemma PickUpDoesNotJump(w: World, i: nat, mouse: Vec3, k: Keys, dt: real)
    requires Inv(w) && i < |w.pieces| && w.pieces[i].snapping == Some(false) && w.current.None?
    ensures var d := OnMouseDown(w, i, mouse, true);
      Update(d, i, mouse, k, dt, true) == Some(Manipulation(
        w.pieces[i].position, Some(Rotation(k, w.pieces[i].rotationSpeed, dt)),
        Some(Translation(k, w.pieces[i].movementSpeed, dt))))
  {
    var d := OnMouseDown(w, i, mouse, true);
    assert Add(mouse, d.pieces[i].offset) == w.pieces[i].position;
  }

  /** With the game active at both ends, pick-up then release restores the colour
      saved at `Start`. If the round ended in between, the highlight stays. */
  lemma HighlightRoundTrip(w: World, i: nat, mouse: Vec3, activeAtRelease: bool)
    requires i < |w.pieces| && w.pieces[i].snapping == Some(false) && w.current.None?
    requires w.pieces[i].color.Some?
    ensures var u := OnMouseUp(OnMouseDown(w, i, mouse, true), i, activeAtRelease);
      && u.current.None?
      && u.pieces[i].color == Some(if activeAtRelease then w.pieces[i].originalColor else w.pieces[i].highlightColor)
  {
  }
}

=== FILE: numeric.dfy ===
/** Conversions from reals to integers as the source languages perform them. */
module Numeric {

  /** Python's `int(x)` and a C-style cast: truncation toward zero. */
  function Trunc(x: real): (r: int)
    ensures x >= 0.0 ==> r as real <= x < r as real + 1.0
    ensures x < 0.0 ==> r as real - 1.0 < x <= r as real
    ensures r >= 0 <==> x > -1.0
  {
    if x >= 0.0 then x.Floor else -((-x).Floor)
  }

  /** C#'s `%` on floats (`fmod`): the remainder takes the sign of the dividend. */
  function FMod(a: real, b: real): (r: real)
    requires b != 0.0
    ensures b > 0.0 && a >= 0.0 ==> 0.0 <= r < b
    ensures b > 0.0 && a < 0.0 ==> -b < r <= 0.0
  {
    FModBounds(a, b);
    a - b * (Trunc(a / b) as real)
  }

  /** The remainder is the fractional part of the quotient times the divisor;
      a negative dividend mirrors a positive one, since truncation is odd. */
  lemma FModBounds(a: real, b: real)
    requires b != 0.0
    ensures b > 0.0 && a >= 0.0 ==> 0.0 <= a - b * (Trunc(a / b) as real) < b
    ensures b > 0.0 && a < 0.0 ==> -b < a - b * (Trunc(a / b) as real) <= 0.0
  {
    if b > 0.0 && a >= 0.0 {
      FModNonNegative(a, b);
    } else if b > 0.0 {
      FModNonNegative(-a, b);
      var t := Trunc(a / b);
      assert -a / b == -(a / b);
      assert Trunc(-a / b) == -t;
      assert -a - b * (Trunc(-a / b) as real) == -(a - b * (t as real));
    }
  }

  lemma FModNonNegative(a: real, b: real)
    requires b > 0.0 && a >= 0.0
    ensures 0.0 <= a - b * (Trunc(a / b) as real) < b
  {
    var q := a / b;
    assert q * b == a;
    assert q >= 0.0;
    RemainderBelow(a, b, q, Trunc(q) as real);
  }

  /** When `q` is the quotient `a / b` and `t <= q < t + 1`, the remainder
      `a - b * t` lies in [0, b). */
  lemma RemainderBelow(a: real, b: real, q: real, t: real)
    requires b > 0.0 && q * b == a && t <= q < t + 1.0
    ensures 0.0 <= a - b * t < b
  {
    var x := q - t;
    assert a - b * t == x * b;
    assert x * b >= 0.0;
    assert (1.0 - x) * b > 0.0;
    assert (1.0 - x) * b == b - x * b;
  }

  /** For a non-negative dividend, `fmod` by 60 is the ordinary remainder: it
      lies in [0, 60) and the dividend is a whole number of sixties plus it. */
  lemma FModSixty(a: real)
    requires a >= 0.0
    ensures 0.0 <= FMod(a, 60.0) < 60.0
    ensures a == 60.0 * ((a / 60.0).Floor as real) + FMod(a, 60.0)
  {
  }

  lemma CancelPositive(x: real, y: real, c: real)
    requires c > 0.0 && x * c <= y * c
    ensures x <= y
  {
  }

  lemma CancelPositiveStrict(x: real, y: real, c: real)
    requires c > 0.0 && x * c < y * c
    ensures x < y
  {
  }

  /** Python's `int(m / n)` for a positive integer `n` agrees with integer
      division, because true division of non-negative values truncates like floor. */
  lemma TruncOfQuotient(m: nat, n: int)
    requires n >= 1
    ensures Trunc(m as real / n as real) == m / n
  {
    var q := m as real / n as real;
    var k := m / n;
    var c := n as real;
    assert k * n <= m < (k + 1) * n;
    MulToReal(k, n);
    MulToReal(k + 1, n);
    assert q * c == m as real;
    CancelPositive(k as real, q, c);
    CancelPositiveStrict(q, (k + 1) as real, c);
    assert q.Floor == k;
  }

  lemma MulToReal(a: int, b: int)
    ensures (a * b) as real == a as real * b as real
  {
  }
}

=== FILE: options.dfy ===
/** The optional value used wherever the source returns `None` or a null reference. */
module Options {

  datatype Option<+T> = None | Some(value: T) {

    /** The wrapped value, or `default` when there is none. */
    function GetOr(default: T): T {
      match this
      case Some(v) => v
      case None => default
    }
  }
}

=== FILE: ordered_dict.dfy ===
/** Python's `dict`: a table of values together with the order in which keys were
    first inserted, which is the order every iteration over the dict follows. */
module OrderedDict {

  ghost predicate Distinct<K>(s: seq<K>) {
    forall i, j :: 0 <= i < j < |s| ==> s[i] != s[j]
  }

  datatype Dict<K, V> = Dict(keys: seq<K>, table: map<K, V>) {

    /** Every key is listed exactly once, and only keys of the table are listed. */
    ghost predicate Valid() {
      && Distinct(keys)
      && (forall i :: 0 <= i < |keys| ==> keys[i] in table)
      && (forall k :: k in table ==> k in keys)
    }
  }

  function Empty<K, V>(): (d: Dict<K, V>)
    ensures d.Valid() && |d.keys| == 0 && d.table == map[]
  {
    Dict([], map[])
  }

  /** `d[k] = v`: an existing key keeps its place in the order, a new key goes last. */
  function Put<K, V>(d: Dict<K, V>, k: K, v: V): (r: Dict<K, V>)
    requires d.Valid()
    ensures r.Valid()
    ensures k in r.table && r.table[k] == v
    ensures forall j :: j in d.table && j != k ==> j in r.table && r.table[j] == d.table[j]
    ensures r.table.Keys == d.table.Keys + {k}
    ensures k in d.table ==> r.keys == d.keys
    ensures k !in d.table ==> r.keys == d.keys + [k]
  {
    if k in d.table then Dict(d.keys, d.table[k := v])
    else Dict(d.keys + [k], d.table[k := v])
  }

  /** `d.get(k, default)`. */
  function Get<K, V>(d: Dict<K, V>, k: K, default: V): V {
    if k in d.table then d.table[k] else default
  }

  /** A dict built by inserting the pairs in order, as a comprehension does. */
  function FromPairs<K, V>(ks: seq<K>, vs: seq<V>): (r: Dict<K, V>)
    requires |ks| == |vs| && Distinct(ks)
    ensures r.Valid()
    ensures r.keys == ks
    ensures forall i :: 0 <= i < |ks| ==> r.table[ks[i]] == vs[i]
  {
    if |ks| == 0 then Empty()
    else
      var n := |ks| - 1;
      var prev := FromPairs(ks[..n], vs[..n]);
      PutLast(ks, vs, prev);
      Put(prev, ks[n], vs[n])
  }

  lemma PutLast<K, V>(ks: seq<K>, vs: seq<V>, prev: Dict<K, V>)
    requires |ks| == |vs| > 0 && Distinct(ks)
    requires prev.Valid() && prev.keys == ks[..|ks| - 1]
    requires forall i :: 0 <= i < |ks| - 1 ==> prev.table[prev.keys[i]] == vs[..|ks| - 1][i]
    ensures ks[|ks| - 1] !in prev.table
    ensures var r := Put(prev, ks[|ks| - 1], vs[|ks| - 1]);
      && r.keys == ks
      && forall i :: 0 <= i < |ks| ==> r.table[ks[i]] == vs[i]
  {
    var n := |ks| - 1;
    LastKeyIsNew(ks, prev);
    var r := Put(prev, ks[n], vs[n]);
    assert r.keys == ks by {
      assert ks == ks[..n] + [ks[n]];
    }
    forall i | 0 <= i < |ks| ensures r.table[ks[i]] == vs[i] {
      if i < n {
        assert prev.keys[i] == ks[i] && vs[..n][i] == vs[i];
        assert ks[i] != ks[n];
      }
    }
  }

  /** The next key of a distinct sequence is not yet in the dict built from the
      keys before it. */
  lemma LastKeyIsNew<K, V>(ks: seq<K>, prev: Dict<K, V>)
    requires |ks| > 0 && Distinct(ks)
    requires prev.Valid() && prev.keys == ks[..|ks| - 1]
    ensures ks[|ks| - 1] !in prev.table
  {
  }
}

=== FILE: registration.dfy ===
/** The registration session of `PitchTracker`: which matches are used, when a
    per-frame update fails, and how a projected point becomes integer output-plane
    coordinates. ORB extraction and brute-force matching enter as each frame's
    `FrameFeatures`; the robust homography fit and the projection itself are
    floating-point work inside OpenCV and enter as the oracles `fit` and
    `project`. */
module Registration {
  import opened Options
  import opened Numeric

  /** `OUTPUT_SIZE`: the top-down pitch plane is 800 by 600 units. */
  const OutputWidth: int := 800
  const OutputHeight: int := 600

  /** Only the 30 best matches are kept, and at least 10 of them are needed. */
  const GoodMatchCap: nat := 30
  const MinGoodMatches: nat := 10

  /** A camera pixel: a detection centre or a user-picked pitch corner. */
  datatype Pixel = Pixel(x: int, y: int)

  /** A point of the output plane, after `int()` truncation. */
  datatype Point = Point(x: int, y: int)

  /** A descriptor match: reference keypoint index, frame keypoint index and the
      Hamming distance between their binary descriptors. */
  datatype Match = Match(queryIdx: nat, trainIdx: nat, distance: nat)

  ghost predicate SortedByDistance(s: seq<Match>) {
    forall i, j :: 0 <= i < j < |s| ==> s[i].distance <= s[j].distance
  }

  /** Places `m` before the first match that is not strictly better than it. */
  function Insert(m: Match, s: seq<Match>): (r: seq<Match>)
    requires SortedByDistance(s)
    ensures SortedByDistance(r)
    ensures multiset(r) == multiset(s) + multiset{m}
    ensures |r| == |s| + 1 && (r[0] == m || (|s| > 0 && r[0] == s[0]))
  {
    if |s| == 0 || m.distance <= s[0].distance then
      ConsSorted(m, s);
      [m] + s
    else
      var t := Insert(m, s[1..]);
      ConsSorted(s[0], t);
      assert s == [s[0]] + s[1..];
      [s[0]] + t
  }

  /** Prepending a match no worse than the head keeps a sequence sorted. */
  lemma ConsSorted(x: Match, t: seq<Match>)
    requires SortedByDistance(t)
    requires |t| > 0 ==> x.distance <= t[0].distance
    ensures SortedByDistance([x] + t)
  {
    var r := [x] + t;
    forall i, j | 0 <= i < j < |r| ensures r[i].distance <= r[j].distance {
      if i == 0 {
        assert r[j] == t[j - 1];
      }
    }
  }

  /** `sorted(matches, key=lambda x: x.distance)`: a stable sort by distance. */
  function SortByDistance(ms: seq<Match>): (r: seq<Match>)
    ensures SortedByDistance(r)
    ensures multiset(r) == multiset(ms)
    ensures |r| == |ms|
  {
    if |ms| == 0 then []
    else
      assert ms == [ms[0]] + ms[1..];
      Insert(ms[0], SortByDistance(ms[1..]))
  }

  /** The matches of one distance, in their order in `s`. */
  function WithDistance(s: seq<Match>, d: nat): seq<Match> {
    if |s| == 0 then []
    else (if s[0].distance == d then [s[0]] else []) + WithDistance(s[1..], d)
  }

  lemma {:induction false} InsertKeepsTies(m: Match, s: seq<Match>, d: nat)
    requires SortedByDistance(s)
    ensures WithDistance(Insert(m, s), d) == (if m.distance == d then [m] else []) + WithDistance(s, d)
    decreases |s|
  {
    if |s| == 0 || m.distance <= s[0].distance {
      assert ([m] + s)[1..] == s;
    } else {
      var t := Insert(m, s[1..]);
      var r := Insert(m, s);
      assert r == [s[0]] + t;
      assert r[1..] == t;
      InsertKeepsTies(m, s[1..], d);
      assert WithDistance(r, d) == (if s[0].distance == d then [s[0]] else []) + WithDistance(t, d);
      assert WithDistance(s, d) == (if s[0].distance == d then [s[0]] else []) + WithDistance(s[1..], d);
      if s[0].distance == d {
        assert m.distance != d;
      }
    }
  }

  /** The sort is stable: matches at equal distance keep their original order,
      as Python's `sorted` promises. */
  lemma {:induction false} SortIsStable(ms: seq<Match>, d: nat)
    ensures WithDistance(SortByDistance(ms), d) == WithDistance(ms, d)
    decreases |ms|
  {
    if |ms| > 0 {
      SortIsStable(ms[1..], d);
      InsertKeepsTies(ms[0], SortByDistance(ms[1..]), d);
    }
  }

  /** Splitting a sorted sequence: nothing in the front is worse than anything
      in the back. */
  lemma SplitSorted(s: seq<Match>, n: nat)
    requires SortedByDistance(s) && n <= |s|
    ensures multiset(s[..n]) <= multiset(s)
    ensures multiset(s) - multiset(s[..n]) == multiset(s[n..])
    ensures SortedByDistance(s[..n])
    ensures forall x, y :: x in s[..n] && y in multiset(s[n..]) ==> x.distance <= y.distance
  {
    SplitMultiset(s, n);
    SplitOrder(s, n);
  }

  lemma SplitMultiset(s: seq<Match>, n: nat)
    requires n <= |s|
    ensures multiset(s[..n]) <= multiset(s)
    ensures multiset(s) - multiset(s[..n]) == multiset(s[n..])
  {
    assert s == s[..n] + s[n..];
  }

  lemma SplitOrder(s: seq<Match>, n: nat)
    requires SortedByDistance(s) && n <= |s|
    ensures forall x, y :: x in s[..n] && y in multiset(s[n..]) ==> x.distance <= y.distance
  {
    forall x, y | x in s[..n] && y in multiset(s[n..])
      ensures x.distance <= y.distance
    {
      assert y in s[n..];
      var i :| 0 <= i < n && s[..n][i] == x;
      var j :| 0 <= j < |s| - n && s[n..][j] == y;
      assert s[i] == x && s[n + j] == y;
    }
  }

  /** `matches[:30]` of the sorted matches: the best `min(30, n)` matches, none of
      them worse than any match left out. Ties keep their input order, and at the
      cut the earliest of the tied matches are the ones kept. */
  function GoodMatches(ms: seq<Match>): (r: seq<Match>)
    ensures |r| == if |ms| < GoodMatchCap then |ms| else GoodMatchCap
    ensures SortedByDistance(r)
    ensures multiset(r) <= multiset(ms)
    ensures forall x, y :: x in r && y in multiset(ms) - multiset(r) ==> x.distance <= y.distance
    ensures forall d :: WithDistance(r, d) <= WithDistance(ms, d)
  {
    var sorted := SortByDistance(ms);
    var n := if |sorted| < GoodMatchCap then |sorted| else GoodMatchCap;
    SplitSorted(sorted, n);
    StablePrefix(ms, n);
    var r := sorted[..n];
    assert multiset(ms) - multiset(r) == multiset(sorted[n..]);
    r
  }

  /** Cutting the sorted matches after `n` keeps, for every distance, the
      earliest matches of that distance in the input. */
  lemma StablePrefix(ms: seq<Match>, n: nat)
    requires n <= |ms|
    ensures forall d :: WithDistance(SortByDistance(ms)[..n], d) <= WithDistance(ms, d)
  {
    var sorted := SortByDistance(ms);
    forall d ensures WithDistance(sorted[..n], d) <= WithDistance(ms, d) {
      SortIsStable(ms, d);
      WithDistancePrefix(sorted, n, d);
    }
  }

  lemma {:induction false} WithDistancePrefix(s: seq<Match>, n: nat, d: nat)
    requires n <= |s|
    ensures WithDistance(s[..n], d) <= WithDistance(s, d)
    decreases n
  {
    if n > 0 {
      assert s[..n][1..] == s[1..][..n - 1];
      WithDistancePrefix(s[1..], n - 1, d);
    }
  }

  /** The four pitch corners picked in the reference frame, in the fixed order
      top-left, top-right, bottom-left, bottom-right. */
  datatype Corners = Corners(topLeft: Pixel, topRight: Pixel, bottomLeft: Pixel, bottomRight: Pixel)

  /** `reference_features` (present or not), `reference_points` and
      `transform_matrix`; `M` is the abstract 3x3 matrix type. */
  datatype Session<M> = Session(hasFeatures: bool, corners: Option<Corners>, transform: Option<M>)

  function NewSession<M>(): Session<M> {
    Session(false, None, None)
  }

  datatype Outcome<M> = Outcome(ok: bool, session: Session<M>)

  /** `initialize_reference`: the reference features are stored before the corner
      selection starts, so they stay even when the user quits it with 'q'; the
      corners are stored only once all four are picked. */
  function InitializeReference<M>(s: Session<M>, selection: Option<Corners>): (r: Outcome<M>)
    ensures r.session.hasFeatures
    ensures r.ok <==> selection.Some?
    ensures r.ok ==> r.session.corners == selection
    ensures !r.ok ==> r.session.corners == s.corners
    ensures r.session.transform == s.transform
  {
    match selection
    case None => Outcome(false, s.(hasFeatures := true))
    case Some(c) => Outcome(true, s.(hasFeatures := true, corners := Some(c)))
  }

  /** What matching a new frame against the reference yields: no descriptors in
      the frame, an exception inside OpenCV, or the cross-checked matches. */
  datatype FrameFeatures = NoDescriptors | MatcherError | Matched(matches: seq<Match>)

  /** `update_transform`. `fit` stands for `findHomography` with RANSAC, the
      inverse, the projection of the reference corners and `getPerspectiveTransform`;
      it yields no matrix when any of them fails or raises. The keypoints of the
      frame the matches index into are part of `fit`, so the caller supplies one
      `fit` per frame (as `ProcessFrame` does). A failed update leaves
      the session as it was: the matrix is only assigned on the last line. */
  function UpdateTransform<M(==)>(s: Session<M>, frame: FrameFeatures,
                                  fit: (seq<Match>, Corners) -> Option<M>): (r: Outcome<M>)
    ensures !r.ok ==> r.session == s
    ensures r.ok <==>
      && s.hasFeatures
      && frame.Matched?
      && |frame.matches| >= MinGoodMatches
      && s.corners.Some?
      && fit(GoodMatches(frame.matches), s.corners.value).Some?
    ensures r.ok ==>
      && r.session.hasFeatures == s.hasFeatures
      && r.session.corners == s.corners
      && r.session.transform == fit(GoodMatches(frame.matches), s.corners.value)
  {
    if !s.hasFeatures then Outcome(false, s)
    else
      match frame
      case NoDescriptors => Outcome(false, s)
      case MatcherError => Outcome(false, s)
      case Matched(ms) =>
        var good := GoodMatches(ms);
        if |good| < MinGoodMatches then Outcome(false, s)
        else if s.corners.None? then Outcome(false, s)
        else
          match fit(good, s.corners.value)
          case None => Outcome(false, s)
          case Some(h) => Outcome(true, s.(transform := Some(h)))
  }

  /** Each frame's matrix is derived afresh from the reference, never from the
      previous frame's matrix, so errors cannot accumulate from frame to frame. */
  lemma TransformIgnoresPrevious<M>(s: Session<M>, a: Option<M>, b: Option<M>,
                                        frame: FrameFeatures, fit: (seq<Match>, Corners) -> Option<M>)
    ensures UpdateTransform(s.(transform := a), frame, fit).ok == UpdateTransform(s.(transform := b), frame, fit).ok
    ensures UpdateTransform(s.(transform := a), frame, fit).ok ==>
      UpdateTransform(s.(transform := a), frame, fit).session == UpdateTransform(s.(transform := b), frame, fit).session
  {
  }

  /** `transform_point`: no result without a matrix or when the projection raises;
      otherwise both projected coordinates are truncated toward zero by `int()`. */
  function TransformPoint<M>(s: Session<M>, p: Pixel, project: (M, Pixel) -> Option<(real, real)>): (r: Option<Point>)
    ensures r.Some? <==> s.transform.Some? && project(s.transform.value, p).Some?
    ensures r.Some? ==>
      var (x, y) := project(s.transform.value, p).value;
      r.value == Point(Trunc(x), Trunc(y))
  {
    match s.transform
    case None => None
    case Some(m) =>
      match project(m, p)
      case None => None
      case Some((x, y)) => Some(Point(Trunc(x), Trunc(y)))
  }

  /** The pitch-bounds filter of the main loop: both ends are included. */
  predicate InPlane(p: Point) {
    0 <= p.x <= OutputWidth && 0 <= p.y <= OutputHeight
  }

  /** Because the filter tests the truncated point, a projection slightly left of
      or above the pitch, in (-1, 0), still passes as coordinate 0; the accepted raw
      region is the open rectangle (-1, 801) x (-1, 601). */
  lemma AcceptedRawRegion(x: real, y: real)
    ensures InPlane(Point(Trunc(x), Trunc(y))) <==>
      -1.0 < x < (OutputWidth + 1) as real && -1.0 < y < (OutputHeight + 1) as real
  {
  }
}

=== FILE: snapping.dfy ===
/** The snap latch of the organ-puzzle `Snapping` component and the counter
    `snappedPieceCount` that all pieces share. The engine's interpolation,
    rounding and quaternion angle are oracles; distances are compared squared. */
module Snapping {
  import opened Options

  /** `snapDistance` defaults to 0.8 units. */
  const DefaultSnapDistance: real := 0.8

  /** The completion test accepts a position within 0.01 of the reference. */
  const ConvergedDistance: real := 0.01

  datatype Vec3 = Vec3(x: real, y: real, z: real)
  datatype Quat = Quat(x: real, y: real, z: real, w: real)
  datatype Pose = Pose(position: Vec3, rotation: Quat)

  /** One piece's `Snapping` component: its reference transform (when set), its
      own transform, its snap distance and its latch. */
  datatype Piece = Piece(reference: Option<Pose>, pose: Pose, snapDistance: real, isSnapped: bool)

  /** All pieces with the static counter they share. */
  datatype Board = Board(pieces: seq<Piece>, snappedPieceCount: int)

  function SqDist(a: Vec3, b: Vec3): (r: real)
    ensures r >= 0.0
    ensures a == b ==> r == 0.0
  {
    var dx := a.x - b.x;
    var dy := a.y - b.y;
    var dz := a.z - b.z;
    assert dx * dx >= 0.0 && dy * dy >= 0.0 && dz * dz >= 0.0;
    dx * dx + dy * dy + dz * dz
  }

  /** `Vector3.Distance(a, b) <= d`, stated without the square root: a negative
      bound admits nothing, otherwise compare the squares. */
  predicate Within(a: Vec3, b: Vec3, d: real) {
    d >= 0.0 && SqDist(a, b) <= d * d
  }

  /** The engine's part of `SnapToPosition`, given as parameters:
      `approach(pose, target, snapDistance, dt)` interpolates a pose toward the
      reference by `1 - exp(-dt * 10 / snapDistance)` and rounds it, where `dt`
      is the frame's `Time.deltaTime`; `aligned` is `Quaternion.Angle(q, r) <= 0.1`. */
  datatype Engine = Engine(approach: (Pose, Pose, real, real) -> Pose, aligned: (Quat, Quat) -> bool)

  /** `Update` of piece `i` for a frame lasting `dt`. Nothing happens without a
      reference or after the latch has closed, nor outside the snap distance.
      Otherwise one snap step moves the piece; when it lands close enough and
      aligned, the pose becomes the reference exactly, the latch closes and the
      counter grows. */
  function Update(b: Board, i: nat, e: Engine, dt: real): (r: Board)
    requires i < |b.pieces|
    ensures |r.pieces| == |b.pieces|
    ensures forall j :: 0 <= j < |r.pieces| && j != i ==> r.pieces[j] == b.pieces[j]
    ensures r.pieces[i].reference == b.pieces[i].reference
    ensures r.pieces[i].snapDistance == b.pieces[i].snapDistance
    ensures b.pieces[i].reference.None? || b.pieces[i].isSnapped ==> r == b
    ensures b.pieces[i].reference.Some? && !Within(b.pieces[i].pose.position, b.pieces[i].reference.value.position, b.pieces[i].snapDistance) ==> r == b
    ensures r.pieces[i].isSnapped && !b.pieces[i].isSnapped ==> r.pieces[i].pose == r.pieces[i].reference.value
    ensures r.snappedPieceCount == b.snappedPieceCount + (if r.pieces[i].isSnapped && !b.pieces[i].isSnapped then 1 else 0)
    ensures b.pieces[i].isSnapped ==> r.pieces[i].isSnapped
    ensures var p := b.pieces[i];
      p.reference.Some? && !p.isSnapped && Within(p.pose.position, p.reference.value.position, p.snapDistance) ==>
        var target := p.reference.value;
        var moved := e.approach(p.pose, target, p.snapDistance, dt);
        if Within(moved.position, target.position, ConvergedDistance) && e.aligned(moved.rotation, target.rotation) then
          r.pieces[i] == p.(pose := target, isSnapped := true) && r.snappedPieceCount == b.snappedPieceCount + 1
        else
          r.pieces[i] == p.(pose := moved) && r.snappedPieceCount == b.snappedPieceCount
  {
    var p := b.pieces[i];
    if p.reference.None? || p.isSnapped then b
    else
      var target := p.reference.value;
      if !Within(p.pose.position, target.position, p.snapDistance) then b
      else
        var moved := e.approach(p.pose, target, p.snapDistance, dt);
        if Within(moved.position, target.position, ConvergedDistance) && e.aligned(moved.rotation, target.rotation) then
          Board(b.pieces[i := p.(pose := target, isSnapped := true)], b.snappedPieceCount + 1)
        else
          b.(pieces := b.pieces[i := p.(pose := moved)])
  }

  /** `SetExpectedReferencePiece`: a new reference reopens the latch; the shared
      counter is not decremented. */
  function SetExpectedReferencePiece(b: Board, i: nat, reference: Option<Pose>): (r: Board)
    requires i < |b.pieces|
    ensures |r.pieces| == |b.pieces|
    ensures forall j :: 0 <= j < |r.pieces| && j != i ==> r.pieces[j] == b.pieces[j]
    ensures r.pieces[i].reference == reference && !r.pieces[i].isSnapped
    ensures r.pieces[i].pose == b.pieces[i].pose && r.pieces[i].snapDistance == b.pieces[i].snapDistance
    ensures r.snappedPieceCount == b.snappedPieceCount
  {
    b.(pieces := b.pieces[i := b.pieces[i].(reference := reference, isSnapped := false)])
  }

  /** The number of closed latches. */
  function CountSnapped(ps: seq<Piece>): (n: nat)
    ensures n <= |ps|
  {
    if |ps| == 0 then 0
    else (if ps[0].isSnapped then 1 else 0) + CountSnapped(ps[1..])
  }

  lemma {:induction false} CountSnappedUpdate(ps: seq<Piece>, i: nat, p: Piece)
    requires i < |ps|
    ensures CountSnapped(ps[i := p]) + (if ps[i].isSnapped then 1 else 0)
         == CountSnapped(ps) + (if p.isSnapped then 1 else 0)
    decreases |ps|
  {
    if i == 0 {
      assert ps[i := p][1..] == ps[1..];
    } else {
      assert ps[i := p][1..] == ps[1..][i - 1 := p];
      CountSnappedUpdate(ps[1..], i - 1, p);
    }
  }

  lemma {:induction false} CountAllSnapped(ps: seq<Piece>)
    requires forall j :: 0 <= j < |ps| ==> ps[j].isSnapped
    ensures CountSnapped(ps) == |ps|
    decreases |ps|
  {
    if |ps| > 0 {
      CountAllSnapped(ps[1..]);
    }
  }

  /** The counter never falls behind the latches that are closed: every closing
      increments it, and reopening a latch leaves it alone. */
  ghost predicate Inv(b: Board) {
    b.snappedPieceCount >= CountSnapped(b.pieces)
  }

  function Initial(pieces: seq<Piece>): (b: Board)
    requires forall j :: 0 <= j < |pieces| ==> !pieces[j].isSnapped
    ensures Inv(b) && b.snappedPieceCount == 0
  {
    CountNoneSnapped(pieces);
    Board(pieces, 0)
  }

  lemma {:induction false} CountNoneSnapped(ps: seq<Piece>)
    requires forall j :: 0 <= j < |ps| ==> !ps[j].isSnapped
    ensures CountSnapped(ps) == 0
    decreases |ps|
  {
    if |ps| > 0 {
      CountNoneSnapped(ps[1..]);
    }
  }

  lemma UpdateKeepsInv(b: Board, i: nat, e: Engine, dt: real)
    requires i < |b.pieces| && Inv(b)
    ensures Inv(Update(b, i, e, dt))
    ensures Update(b, i, e, dt).snappedPieceCount - CountSnapped(Update(b, i, e, dt).pieces)
         == b.snappedPieceCount - CountSnapped(b.pieces)
  {
    var r := Update(b, i, e, dt);
    if r != b {
      assert r.pieces == b.pieces[i := r.pieces[i]];
      CountSnappedUpdate(b.pieces, i, r.pieces[i]);
    }
  }

  lemma SetReferenceKeepsInv(b: Board, i: nat, reference: Option<Pose>)
    requires i < |b.pieces| && Inv(b)
    ensures Inv(SetExpectedReferencePiece(b, i, reference))
  {
    var r := SetExpectedReferencePiece(b, i, reference);
    CountSnappedUpdate(b.pieces, i, r.pieces[i]);
  }

  /** A frame's event for one piece: its `Update` in a frame of length `dt`, or a
      new reference. */
  datatype Event = Tick(piece: nat, dt: real) | NewReference(target: nat, reference: Option<Pose>)

  function Apply(b: Board, ev: Event, e: Engine): (r: Board)
    ensures |r.pieces| == |b.pieces|
    ensures r.snappedPieceCount >= b.snappedPieceCount
  {
    match ev
    case Tick(i, dt) => if i < |b.pieces| then Update(b, i, e, dt) else b
    case NewReference(i, ref) => if i < |b.pieces| then SetExpectedReferencePiece(b, i, ref) else b
  }

  function Run(b: Board, evs: seq<Event>, e: Engine): (r: Board)
    ensures |r.pieces| == |b.pieces|
    ensures r.snappedPieceCount >= b.snappedPieceCount
    decreases |evs|
  {
    if |evs| == 0 then b else Run(Apply(b, evs[0], e), evs[1..], e)
  }

  /** Over any run the counter never decreases and never falls behind the closed
      latches. */
  lemma {:induction false} RunKeepsCounter(b: Board, evs: seq<Event>, e: Engine)
    requires Inv(b)
    ensures Inv(Run(b, evs, e))
    ensures Run(b, evs, e).snappedPieceCount >= b.snappedPieceCount
    decreases |evs|
  {
    if |evs| > 0 {
      var b1 := Apply(b, evs[0], e);
      match evs[0] {
        case Tick(i, dt) =>
          if i < |b.pieces| { UpdateKeepsInv(b, i, e, dt); }
        case NewReference(i, ref) =>
          if i < |b.pieces| { SetReferenceKeepsInv(b, i, ref); }
      }
      RunKeepsCounter(b1, evs[1..], e);
    }
  }

  /** When every latch is closed, the shared counter has reached the number of
      pieces (8 in the scene, `totalPieces`). */
  lemma AllSnappedCounted(b: Board)
    requires Inv(b)
    requires forall j :: 0 <= j < |b.pieces| ==> b.pieces[j].isSnapped
    ensures b.snappedPieceCount >= |b.pieces|
  {
    CountAllSnapped(b.pieces);
  }
}

=== FILE: tracker.dfy ===
/** Player identity tracking of `yolo.py`: `assign_player_id`, the per-detection
    update of the main loop (five seeded ids, the inclusive pitch-bounds filter,
    a colour fixed on first sight, append-only histories), the skip of a whole
    frame when registration fails, and `format_tracking_data`.

    `player_positions` and `player_colors` are Python dicts; both are modelled as
    insertion-ordered dicts, because the order of `player_positions` decides
    ties in `assign_player_id` and the order of both shapes the export. */
module Tracker {
  import opened Options
  import opened OrderedDict
  import opened Registration
  import Decimal

  /** `max_distance=50`: a track matches only when strictly closer than this. */
  const Gate: int := 50
  const GateSq: int := Gate * Gate

  /** `player_ids = [i for i in range(5)]`: the ids handed out first, in order. */
  const StableIds: seq<int> := [0, 1, 2, 3, 4]

  datatype Color = Color(r: int, g: int, b: int)

  /** `np.random.randint(0, 255, 3)`: the upper bound is exclusive. */
  predicate ValidColor(c: Color) {
    0 <= c.r < 255 && 0 <= c.g < 255 && 0 <= c.b < 255
  }

  /** `player_positions`: id to the sequence of its output-plane points. */
  type Positions = Dict<int, seq<Point>>

  /** Squared Euclidean distance. Comparing squares is exact: the gate test is
      exact because 50² is an integer and `sqrt` is correctly rounded, and the
      distances compared for the minimum lie below the gate, where distinct
      integers have distinct double-precision square roots. */
  function SqDist(p: Point, q: Point): nat {
    (p.x - q.x) * (p.x - q.x) + (p.y - q.y) * (p.y - q.y)
  }

  /** The track at place `i` of the iteration order is a candidate: it has a last
      position, and that position is strictly inside the gate. */
  predicate InGate(center: Point, d: Positions, i: int)
    requires d.Valid()
  {
    && 0 <= i < |d.keys|
    && var h := d.table[d.keys[i]];
    && |h| > 0
    && SqDist(center, h[|h| - 1]) < GateSq
  }

  function DistAt(center: Point, d: Positions, i: int): nat
    requires d.Valid() && InGate(center, d, i)
  {
    var h := d.table[d.keys[i]];
    SqDist(center, h[|h| - 1])
  }

  /** Place `i` holds the nearest candidate, and no earlier place holds one just
      as near (the source only replaces its choice on a strictly smaller distance). */
  ghost predicate IsNearest(center: Point, d: Positions, i: int)
    requires d.Valid()
  {
    && InGate(center, d, i)
    && (forall j :: InGate(center, d, j) ==> DistAt(center, d, i) <= DistAt(center, d, j))
    && (forall j :: 0 <= j < i && InGate(center, d, j) ==> DistAt(center, d, j) > DistAt(center, d, i))
  }

  /** What the loop of `assign_player_id` knows after the first `n` tracks: `w`
      is the place of `closest_id`, or none while `min_distance` is infinite. */
  ghost predicate ChoiceSoFar(center: Point, d: Positions, n: int, w: Option<nat>)
    requires d.Valid() && 0 <= n <= |d.keys|
  {
    match w
    case None => forall j :: 0 <= j < n ==> !InGate(center, d, j)
    case Some(k) =>
      && k < n
      && InGate(center, d, k)
      && (forall j :: 0 <= j < n && InGate(center, d, j) ==> DistAt(center, d, k) <= DistAt(center, d, j))
      && (forall j :: 0 <= j < k && InGate(center, d, j) ==> DistAt(center, d, j) > DistAt(center, d, k))
  }

  /** The loop of `assign_player_id` from place `i` on. */
  function Scan(center: Point, d: Positions, i: nat, w: Option<nat>): (r: Option<nat>)
    requires d.Valid() && i <= |d.keys| && ChoiceSoFar(center, d, i, w)
    ensures ChoiceSoFar(center, d, |d.keys|, r)
    decreases |d.keys| - i
  {
    if i == |d.keys| then w
    else if InGate(center, d, i) && (w.None? || DistAt(center, d, i) < DistAt(center, d, w.value)) then
      Scan(center, d, i + 1, Some(i))
    else
      Scan(center, d, i + 1, w)
  }

  /** `max(keys, default=-1)`. */
  function MaxKey(keys: seq<int>): (m: int)
    ensures forall i :: 0 <= i < |keys| ==> keys[i] <= m
    ensures |keys| == 0 ==> m == -1
    ensures |keys| > 0 ==> m in keys
  {
    if |keys| == 0 then -1
    else if |keys| == 1 then keys[0]
    else
      var rest := MaxKey(keys[1..]);
      assert forall i :: 1 <= i < |keys| ==> keys[i] == keys[1..][i - 1];
      if keys[0] >= rest then keys[0] else rest
  }

  /** `assign_player_id`: the id of the nearest track whose last position is
      strictly inside the gate (the first one in iteration order on a tie);
      failing that, one more than the largest id, or 0 when there are none.
      The source marks "no match yet" with the id -1, so a track keyed -1 is
      never returned; the tracker only ever holds ids from 0 up. */
  function AssignPlayerId(center: Point, d: Positions): (id: int)
    requires d.Valid()
    ensures forall i :: IsNearest(center, d, i) && d.keys[i] != -1 ==> id == d.keys[i]
    ensures id in d.table ==> exists i :: IsNearest(center, d, i) && d.keys[i] == id
    ensures id !in d.table ==> id == MaxKey(d.keys) + 1
    ensures id == MaxKey(d.keys) + 1 ==> id !in d.table
    ensures (forall i :: 0 <= i < |d.keys| ==> !InGate(center, d, i)) ==> id == MaxKey(d.keys) + 1
    ensures |d.keys| == 0 ==> id == 0
    ensures -1 in d.table ==> id != -1
  {
    var w := Scan(center, d, 0, None);
    var closest := if w.Some? then d.keys[w.value] else -1;
    assert forall i :: IsNearest(center, d, i) ==> w == Some(i);
    if closest != -1 then closest else MaxKey(d.keys) + 1
  }

  /** The tracking variables of `main`: positions, colours and the unused
      seeded ids. */
  datatype Tracker = Tracker(positions: Positions, colors: Dict<int, Color>, pool: seq<int>)

  /** `player_positions`, `player_colors` and `player_ids` as `main` sets them up. */
  function InitialTracker(): (t: Tracker)
    ensures Inv(t)
    ensures |t.positions.keys| == 0 && |t.colors.keys| == 0
    ensures t.pool == [0, 1, 2, 3, 4]
  {
    Tracker(Empty(), Empty(), StableIds)
  }

  /** What holds between detections: both dicts list the same ids in the same
      order, every id is non-negative and has a non-empty history of in-plane
      points and a valid colour, and the seeded ids still in the pool are the
      last ones of 0..4 while the ones handed out head the key order. */
  ghost predicate Inv(t: Tracker) {
    && t.positions.Valid()
    && t.colors.Valid()
    && t.colors.keys == t.positions.keys
    && HistoriesOk(t)
    && ColorsOk(t)
    && PoolOk(t)
  }

  ghost predicate HistoriesOk(t: Tracker) {
    && (forall k :: k in t.positions.table ==> k >= 0)
    && (forall k :: k in t.positions.table ==> |t.positions.table[k]| > 0)
    && (forall k, p :: k in t.positions.table && p in t.positions.table[k] ==> InPlane(p))
  }

  ghost predicate ColorsOk(t: Tracker) {
    forall k :: k in t.colors.table ==> ValidColor(t.colors.table[k])
  }

  ghost predicate PoolOk(t: Tracker) {
    && |t.pool| <= |StableIds|
    && t.pool == StableIds[|StableIds| - |t.pool|..]
    && (|t.pool| > 0 ==> t.positions.keys == StableIds[..|StableIds| - |t.pool|])
    && (|t.pool| == 0 ==> |t.positions.keys| >= |StableIds| && t.positions.keys[..|StableIds|] == StableIds)
  }

  /** The id given to an accepted detection at `p`: `player_ids.pop(0)` while the
      pool lasts, `assign_player_id` after that. */
  function NextId(t: Tracker, p: Point): (id: int)
    requires t.positions.Valid()
    ensures |t.pool| > 0 ==> id == t.pool[0]
    ensures |t.pool| == 0 ==>
      forall i :: IsNearest(p, t.positions, i) && t.positions.keys[i] != -1 ==> id == t.positions.keys[i]
    ensures |t.pool| == 0 && id in t.positions.table ==>
      exists i :: IsNearest(p, t.positions, i) && t.positions.keys[i] == id
    ensures |t.pool| == 0 && id !in t.positions.table ==> id == MaxKey(t.positions.keys) + 1
  {
    if |t.pool| > 0 then t.pool[0] else AssignPlayerId(p, t.positions)
  }

  predicate Accepted(obs: Option<Point>) {
    obs.Some? && InPlane(obs.value)
  }

  /** `player_positions[id].append(p)`, creating the history on first sight. */
  function Record(d: Positions, id: int, p: Point): (r: Positions)
    requires d.Valid()
    ensures r.Valid()
    ensures id in r.table && r.table[id] == Get(d, id, []) + [p]
    ensures r.table.Keys == d.table.Keys + {id}
    ensures forall k :: k in d.table && k != id ==> r.table[k] == d.table[k]
    ensures id in d.table ==> r.keys == d.keys
    ensures id !in d.table ==> r.keys == d.keys + [id]
  {
    Put(d, id, Get(d, id, []) + [p])
  }

  /** `player_colors[id] = drawn` guarded by `id not in player_colors`: the
      first colour stays. */
  function Paint(d: Dict<int, Color>, id: int, drawn: Color): (r: Dict<int, Color>)
    requires d.Valid()
    ensures r.Valid()
    ensures r.table.Keys == d.table.Keys + {id}
    ensures forall k :: k in d.table ==> r.table[k] == d.table[k]
    ensures id !in d.table ==> r.table[id] == drawn
    ensures id in d.table ==> r.keys == d.keys
    ensures id !in d.table ==> r.keys == d.keys + [id]
  {
    if id in d.table then d else Put(d, id, drawn)
  }

  /** One detection of the main loop, given what `transform_point` returned for
      it and the colour `np.random.randint` would draw. A missing or out-of-plane
      point changes nothing; otherwise exactly one history grows by the point,
      every other history is untouched, and a colour is stored only for an id
      seen for the first time. */
  function Observe(t: Tracker, obs: Option<Point>, drawn: Color): (r: Tracker)
    requires t.positions.Valid() && t.colors.Valid()
    ensures r.positions.Valid() && r.colors.Valid()
    ensures !Accepted(obs) ==> r == t
    ensures Accepted(obs) ==> var id := NextId(t, obs.value);
      && id in r.positions.table
      && r.positions.table[id] == Get(t.positions, id, []) + [obs.value]
      && r.positions.table.Keys == t.positions.table.Keys + {id}
    ensures Accepted(obs) ==> var id := NextId(t, obs.value);
      forall k :: k in t.positions.table && k != id ==> r.positions.table[k] == t.positions.table[k]
    ensures Accepted(obs) ==> var id := NextId(t, obs.value);
      && (id in t.positions.table ==> r.positions.keys == t.positions.keys)
      && (id !in t.positions.table ==> r.positions.keys == t.positions.keys + [id])
    ensures Accepted(obs) ==> var id := NextId(t, obs.value);
      && r.colors.table.Keys == t.colors.table.Keys + {id}
      && (forall k :: k in t.colors.table ==> r.colors.table[k] == t.colors.table[k])
      && (id !in t.colors.table ==> r.colors.table[id] == drawn)
    ensures Accepted(obs) ==> var id := NextId(t, obs.value);
      && (id in t.colors.table ==> r.colors.keys == t.colors.keys)
      && (id !in t.colors.table ==> r.colors.keys == t.colors.keys + [id])
    ensures Accepted(obs) ==> r.pool == if |t.pool| > 0 then t.pool[1..] else t.pool
  {
    if !Accepted(obs) then t
    else
      var id := NextId(t, obs.value);
      Tracker(Record(t.positions, id, obs.value), Paint(t.colors, id, drawn),
              if |t.pool| > 0 then t.pool[1..] else t.pool)
  }

  /** While the pool lasts, the next id is the number of tracks so far, whatever
      the position: the first five accepted detections become players 0..4. */
  lemma PoolIdsComeInOrder(t: Tracker, p: Point)
    requires t.positions.Valid() && PoolOk(t) && |t.pool| > 0
    ensures NextId(t, p) == |t.positions.keys|
    ensures NextId(t, p) !in t.positions.table
  {
    assert t.pool[0] == StableIds[|StableIds| - |t.pool|];
  }

  /** An id that is not yet a key is one past the largest key, so never negative. */
  lemma NewIdNonNegative(t: Tracker, p: Point)
    requires Inv(t) && |t.pool| == 0
    ensures NextId(t, p) >= 0
  {
    var id := NextId(t, p);
    if id !in t.positions.table {
      assert t.positions.keys[0] in t.positions.table;
    }
  }

  lemma ObserveKeepsHistories(t: Tracker, obs: Option<Point>, drawn: Color)
    requires Inv(t)
    ensures HistoriesOk(Observe(t, obs, drawn))
  {
    if Accepted(obs) {
      if |t.pool| > 0 {
        PoolIdsComeInOrder(t, obs.value);
      } else {
        NewIdNonNegative(t, obs.value);
      }
      RecordKeepsHistories(t, obs, drawn);
    }
  }

  /** Appending an in-plane point under a non-negative id keeps every history
      non-empty and in the plane. */
  lemma RecordKeepsHistories(t: Tracker, obs: Option<Point>, drawn: Color)
    requires t.positions.Valid() && t.colors.Valid() && HistoriesOk(t)
    requires Accepted(obs) && NextId(t, obs.value) >= 0
    ensures HistoriesOk(Observe(t, obs, drawn))
  {
    var r := Observe(t, obs, drawn);
    var id := NextId(t, obs.value);
    forall k, p | k in r.positions.table && p in r.positions.table[k]
      ensures InPlane(p)
    {
      if k == id && k in t.positions.table {
        assert p in t.positions.table[k] || p == obs.value;
      }
    }
  }

  lemma ObserveKeepsPoolWhileSeeding(t: Tracker, obs: Option<Point>, drawn: Color)
    requires t.positions.Valid() && t.colors.Valid() && PoolOk(t) && |t.pool| > 0 && Accepted(obs)
    ensures PoolOk(Observe(t, obs, drawn))
  {
    var r := Observe(t, obs, drawn);
    PoolIdsComeInOrder(t, obs.value);
    assert r.positions.keys == t.positions.keys + [t.pool[0]];
    PoolStep(t.positions.keys, t.pool);
  }

  /** Handing out the pool's first id moves it from the pool to the end of the
      key order, keeping both shapes. */
  lemma PoolStep(keys: seq<int>, pool: seq<int>)
    requires 0 < |pool| <= |StableIds|
    requires pool == StableIds[|StableIds| - |pool|..]
    requires keys == StableIds[..|StableIds| - |pool|]
    ensures pool[1..] == StableIds[|StableIds| - |pool[1..]|..]
    ensures keys + [pool[0]] == StableIds[..|StableIds| - |pool[1..]|]
  {
    var n := |StableIds| - |pool|;
    assert pool[0] == StableIds[n];
    assert keys + [pool[0]] == StableIds[..n + 1];
  }

  lemma ObserveKeepsPoolAfterSeeding(t: Tracker, obs: Option<Point>, drawn: Color)
    requires t.positions.Valid() && t.colors.Valid() && PoolOk(t) && |t.pool| == 0 && Accepted(obs)
    ensures PoolOk(Observe(t, obs, drawn))
  {
    var r := Observe(t, obs, drawn);
    var id := NextId(t, obs.value);
    if id in t.positions.table {
      assert r.positions.keys == t.positions.keys;
    } else {
      assert r.positions.keys == t.positions.keys + [id];
      SeededPrefixKept(t.positions.keys, id);
    }
  }

  /** Appending a key keeps the seeded ids at the front. */
  lemma SeededPrefixKept(keys: seq<int>, id: int)
    requires |keys| >= |StableIds| && keys[..|StableIds|] == StableIds
    ensures (keys + [id])[..|StableIds|] == StableIds
  {
    assert (keys + [id])[..|StableIds|] == keys[..|StableIds|];
  }

  lemma ObserveKeepsPool(t: Tracker, obs: Option<Point>, drawn: Color)
    requires Inv(t)
    ensures PoolOk(Observe(t, obs, drawn))
  {
    if Accepted(obs) {
      if |t.pool| > 0 {
        ObserveKeepsPoolWhileSeeding(t, obs, drawn);
      } else {
        ObserveKeepsPoolAfterSeeding(t, obs, drawn);
      }
    }
  }

  /** Every accepted or rejected detection keeps the tracker's invariant. */
  lemma ObservePreservesInv(t: Tracker, obs: Option<Point>, drawn: Color)
    requires Inv(t) && ValidColor(drawn)
    ensures Inv(Observe(t, obs, drawn))
  {
    ObserveKeepsHistories(t, obs, drawn);
    ObserveKeepsPool(t, obs, drawn);
    ObserveKeepsColors(t, obs, drawn);
    ObserveKeepsOrder(t, obs, drawn);
  }

  lemma ObserveKeepsColors(t: Tracker, obs: Option<Point>, drawn: Color)
    requires t.positions.Valid() && t.colors.Valid() && ColorsOk(t) && ValidColor(drawn)
    ensures ColorsOk(Observe(t, obs, drawn))
  {
  }

  /** Both dicts gain a key exactly together, so they keep the same order. */
  lemma ObserveKeepsOrder(t: Tracker, obs: Option<Point>, drawn: Color)
    requires t.positions.Valid() && t.colors.Valid() && t.colors.keys == t.positions.keys
    ensures Observe(t, obs, drawn).colors.keys == Observe(t, obs, drawn).positions.keys
  {
    if Accepted(obs) {
      var id := NextId(t, obs.value);
      assert id in t.positions.table <==> id in t.colors.table;
    }
  }

  /** `u` is `t` with more recorded: the old ids head the key order, every old
      history is a prefix of the new one, and no colour has changed. */
  ghost predicate Extends(t: Tracker, u: Tracker) {
    && |t.positions.keys| <= |u.positions.keys|
    && u.positions.keys[..|t.positions.keys|] == t.positions.keys
    && (forall k :: k in t.positions.table ==> k in u.positions.table && t.positions.table[k] <= u.positions.table[k])
    && (forall k :: k in t.colors.table ==> k in u.colors.table && u.colors.table[k] == t.colors.table[k])
  }

  lemma ExtendsTransitive(t: Tracker, u: Tracker, v: Tracker)
    requires Extends(t, u) && Extends(u, v)
    ensures Extends(t, v)
  {
    var n := |t.positions.keys|;
    assert v.positions.keys[..n] == v.positions.keys[..|u.positions.keys|][..n];
  }

  lemma ObserveExtends(t: Tracker, obs: Option<Point>, drawn: Color)
    requires t.positions.Valid() && t.colors.Valid()
    ensures Extends(t, Observe(t, obs, drawn))
  {
    var r := Observe(t, obs, drawn);
    if Accepted(obs) {
      var id := NextId(t, obs.value);
      if id !in t.positions.table {
        assert r.positions.keys[..|t.positions.keys|] == t.positions.keys;
      }
    }
  }

  /** The number of points recorded over the ids `keys`. */
  function SumLen(keys: seq<int>, table: map<int, seq<Point>>): nat
    requires forall i :: 0 <= i < |keys| ==> keys[i] in table
  {
    if |keys| == 0 then 0 else SumLen(keys[..|keys| - 1], table) + |table[keys[|keys| - 1]]|
  }

  lemma {:induction false} SumLenIgnoresOthers(keys: seq<int>, table: map<int, seq<Point>>, k: int, v: seq<Point>)
    requires forall i :: 0 <= i < |keys| ==> keys[i] in table
    requires k !in keys
    ensures SumLen(keys, table[k := v]) == SumLen(keys, table)
  {
    if |keys| > 0 {
      SumLenIgnoresOthers(keys[..|keys| - 1], table, k, v);
    }
  }

  lemma {:induction false} SumLenUpdate(keys: seq<int>, table: map<int, seq<Point>>, k: int, v: seq<Point>)
    requires forall i :: 0 <= i < |keys| ==> keys[i] in table
    requires Distinct(keys) && k in keys
    ensures SumLen(keys, table[k := v]) + |table[k]| == SumLen(keys, table) + |v|
  {
    var init := keys[..|keys| - 1];
    if keys[|keys| - 1] == k {
      assert k !in init;
      SumLenIgnoresOthers(init, table, k, v);
    } else {
      assert k in init;
      SumLenUpdate(init, table, k, v);
    }
  }

  function TotalPoints(t: Tracker): nat
    requires t.positions.Valid()
  {
    SumLen(t.positions.keys, t.positions.table)
  }

  /** Each accepted detection records exactly one point; a rejected one none. */
  lemma ObserveRecordsOnePoint(t: Tracker, obs: Option<Point>, drawn: Color)
    requires t.positions.Valid() && t.colors.Valid()
    ensures TotalPoints(Observe(t, obs, drawn)) == TotalPoints(t) + if Accepted(obs) then 1 else 0
  {
    if Accepted(obs) {
      var r := Observe(t, obs, drawn);
      var id := NextId(t, obs.value);
      var v := Get(t.positions, id, []) + [obs.value];
      assert r.positions.table == t.positions.table[id := v];
      if id in t.positions.table {
        SumLenUpdate(t.positions.keys, t.positions.table, id, v);
      } else {
        var keys := r.positions.keys;
        assert keys[..|keys| - 1] == t.positions.keys;
        SumLenIgnoresOthers(t.positions.keys, t.positions.table, id, v);
      }
    }
  }

  /** A detection as the tracker receives it: its centre in camera pixels and the
      colour the random generator would give a new player. */
  datatype Detection = Detection(center: Pixel, drawn: Color)

  /** The detections of one frame, in the order non-maximum suppression returns
      them, each projected with the session's current matrix. */
  function ObserveAll<M>(t: Tracker, s: Session<M>, project: (M, Pixel) -> Option<(real, real)>,
                         ds: seq<Detection>): (r: Tracker)
    requires t.positions.Valid() && t.colors.Valid()
    ensures r.positions.Valid() && r.colors.Valid()
    ensures CountAccepted(s, project, ds) == 0 ==> r == t
    decreases |ds|
  {
    if |ds| == 0 then t
    else ObserveAll(Observe(t, TransformPoint(s, ds[0].center, project), ds[0].drawn), s, project, ds[1..])
  }

  /** How many of the detections survive projection and the bounds filter. */
  function CountAccepted<M>(s: Session<M>, project: (M, Pixel) -> Option<(real, real)>, ds: seq<Detection>): nat
    decreases |ds|
  {
    if |ds| == 0 then 0
    else (if Accepted(TransformPoint(s, ds[0].center, project)) then 1 else 0) + CountAccepted(s, project, ds[1..])
  }

  predicate ColorsDrawnOk(ds: seq<Detection>) {
    forall i :: 0 <= i < |ds| ==> ValidColor(ds[i].drawn)
  }

  /** Over a frame's detections the invariant holds, nothing recorded is lost or
      recoloured, and exactly one point is recorded per accepted detection. */
  lemma ObserveAllSound<M>(t: Tracker, s: Session<M>, project: (M, Pixel) -> Option<(real, real)>,
                           ds: seq<Detection>)
    requires Inv(t) && ColorsDrawnOk(ds)
    ensures Inv(ObserveAll(t, s, project, ds))
    ensures Extends(t, ObserveAll(t, s, project, ds))
    ensures TotalPoints(ObserveAll(t, s, project, ds)) == TotalPoints(t) + CountAccepted(s, project, ds)
  {
    ObserveAllKeepsInv(t, s, project, ds);
    ObserveAllExtends(t, s, project, ds);
    ObserveAllCounts(t, s, project, ds);
  }

  lemma {:induction false} ObserveAllKeepsInv<M>(t: Tracker, s: Session<M>, project: (M, Pixel) -> Option<(real, real)>,
                                                 ds: seq<Detection>)
    requires Inv(t) && ColorsDrawnOk(ds)
    ensures Inv(ObserveAll(t, s, project, ds))
    decreases |ds|
  {
    if |ds| > 0 {
      var obs := TransformPoint(s, ds[0].center, project);
      ObservePreservesInv(t, obs, ds[0].drawn);
      ObserveAllKeepsInv(Observe(t, obs, ds[0].drawn), s, project, ds[1..]);
    }
  }

  lemma {:induction false} ObserveAllExtends<M>(t: Tracker, s: Session<M>, project: (M, Pixel) -> Option<(real, real)>,
                                                ds: seq<Detection>)
    requires t.positions.Valid() && t.colors.Valid()
    ensures Extends(t, ObserveAll(t, s, project, ds))
    decreases |ds|
  {
    if |ds| == 0 {
      assert t.positions.keys[..|t.positions.keys|] == t.positions.keys;
    } else {
      var obs := TransformPoint(s, ds[0].center, project);
      var t1 := Observe(t, obs, ds[0].drawn);
      ObserveExtends(t, obs, ds[0].drawn);
      ObserveAllExtends(t1, s, project, ds[1..]);
      ExtendsTransitive(t, t1, ObserveAll(t1, s, project, ds[1..]));
    }
  }

  lemma {:induction false} ObserveAllCounts<M>(t: Tracker, s: Session<M>, project: (M, Pixel) -> Option<(real, real)>,
                                               ds: seq<Detection>)
    requires t.positions.Valid() && t.colors.Valid()
    ensures TotalPoints(ObserveAll(t, s, project, ds)) == TotalPoints(t) + CountAccepted(s, project, ds)
    decreases |ds|
  {
    if |ds| > 0 {
      var obs := TransformPoint(s, ds[0].center, project);
      ObserveRecordsOnePoint(t, obs, ds[0].drawn);
      ObserveAllCounts(Observe(t, obs, ds[0].drawn), s, project, ds[1..]);
    }
  }

  datatype Step<M> = Step(session: Session<M>, tracker: Tracker)

  /** One iteration of the main loop: update the transform, and when that fails
      skip the frame's detections entirely rather than map them with a stale
      matrix. */
  function ProcessFrame<M(==)>(s: Session<M>, t: Tracker, frame: FrameFeatures,
                               fit: (seq<Match>, Corners) -> Option<M>,
                               project: (M, Pixel) -> Option<(real, real)>,
                               ds: seq<Detection>): (r: Step<M>)
    requires t.positions.Valid() && t.colors.Valid()
    ensures !UpdateTransform(s, frame, fit).ok ==> r == Step(s, t)
    ensures UpdateTransform(s, frame, fit).ok ==> r.session == UpdateTransform(s, frame, fit).session
  {
    var u := UpdateTransform(s, frame, fit);
    if !u.ok then Step(s, t) else Step(u.session, ObserveAll(t, u.session, project, ds))
  }

  /** A frame keeps the invariant and only adds to what was recorded: one point
      per accepted detection after a successful update, none after a failed one. */
  lemma ProcessFrameSound<M>(s: Session<M>, t: Tracker, frame: FrameFeatures,
                                 fit: (seq<Match>, Corners) -> Option<M>,
                                 project: (M, Pixel) -> Option<(real, real)>,
                                 ds: seq<Detection>)
    requires Inv(t) && ColorsDrawnOk(ds)
    ensures var r := ProcessFrame(s, t, frame, fit, project, ds);
      && Inv(r.tracker)
      && Extends(t, r.tracker)
      && TotalPoints(r.tracker) == TotalPoints(t) +
           if UpdateTransform(s, frame, fit).ok then CountAccepted(r.session, project, ds) else 0
  {
    var u := UpdateTransform(s, frame, fit);
    if u.ok {
      ObserveAllSound(t, u.session, project, ds);
    } else {
      assert Extends(t, t);
    }
  }

  /** A frame in which no descriptors are found keeps the previous matrix and
      records nothing. */
  lemma FrameWithoutKeypoints<M>(s: Session<M>, t: Tracker,
                                     fit: (seq<Match>, Corners) -> Option<M>,
                                     project: (M, Pixel) -> Option<(real, real)>,
                                     ds: seq<Detection>)
    requires t.positions.Valid() && t.colors.Valid()
    ensures ProcessFrame(s, t, NoDescriptors, fit, project, ds) == Step(s, t)
  {
  }

  /** While ids are seeded, proximity plays no part: two detections 5 units
      apart, which the gate would join, become two players, 0 and 1. */
  lemma SeededIdsIgnoreProximity(c0: Color, c1: Color)
    ensures var t1 := Observe(InitialTracker(), Some(Point(400, 300)), c0);
            var t2 := Observe(t1, Some(Point(405, 300)), c1);
            && t2.positions.keys == [0, 1]
            && t2.positions.table == map[0 := [Point(400, 300)], 1 := [Point(405, 300)]]
            && t2.colors.table == map[0 := c0, 1 := c1]
  {
    FirstSeeded(c0);
    SecondSeeded(c0, c1);
  }

  lemma FirstSeeded(c0: Color)
    ensures Observe(InitialTracker(), Some(Point(400, 300)), c0)
         == Tracker(Dict([0], map[0 := [Point(400, 300)]]), Dict([0], map[0 := c0]), [1, 2, 3, 4])
  {
    var t0 := InitialTracker();
    assert NextId(t0, Point(400, 300)) == 0;
    assert Get(t0.positions, 0, []) + [Point(400, 300)] == [Point(400, 300)];
    assert Record(t0.positions, 0, Point(400, 300)) == Dict([] + [0], map[][0 := [Point(400, 300)]]);
    assert Paint(t0.colors, 0, c0) == Dict([] + [0], map[][0 := c0]);
    assert StableIds[1..] == [1, 2, 3, 4];
  }

  lemma SecondSeeded(c0: Color, c1: Color)
    ensures var t1 := Tracker(Dict([0], map[0 := [Point(400, 300)]]), Dict([0], map[0 := c0]), [1, 2, 3, 4]);
            var t2 := Observe(t1, Some(Point(405, 300)), c1);
            && t2.positions.keys == [0, 1]
            && t2.positions.table == map[0 := [Point(400, 300)], 1 := [Point(405, 300)]]
            && t2.colors.table == map[0 := c0, 1 := c1]
  {
    var t1 := Tracker(Dict([0], map[0 := [Point(400, 300)]]), Dict([0], map[0 := c0]), [1, 2, 3, 4]);
    assert NextId(t1, Point(405, 300)) == 1;
    assert Get(t1.positions, 1, []) + [Point(405, 300)] == [Point(405, 300)];
    assert Record(t1.positions, 1, Point(405, 300))
        == Dict([0] + [1], map[0 := [Point(400, 300)]][1 := [Point(405, 300)]]);
    assert Paint(t1.colors, 1, c1) == Dict([0] + [1], map[0 := c0][1 := c1]);
  }

  function LastPoint(h: seq<Point>): Point
    requires |h| > 0
  {
    h[|h| - 1]
  }

  /** Once the seeded ids are used up, a detection strictly inside the gate of
      track `k`, and strictly nearer to it than to every other track, keeps
      id `k`: a player moving less than the gate per frame keeps its identity. */
  lemma NearestTrackKeepsItsId(t: Tracker, p: Point, k: int)
    requires t.positions.Valid() && |t.pool| == 0
    requires k >= 0 && k in t.positions.table && |t.positions.table[k]| > 0
    requires SqDist(p, LastPoint(t.positions.table[k])) < GateSq
    requires forall j :: j in t.positions.table && j != k && |t.positions.table[j]| > 0 ==>
               SqDist(p, LastPoint(t.positions.table[j])) > SqDist(p, LastPoint(t.positions.table[k]))
    ensures NextId(t, p) == k
  {
    var d := t.positions;
    var i :| 0 <= i < |d.keys| && d.keys[i] == k;
    forall j | InGate(p, d, j) ensures DistAt(p, d, i) <= DistAt(p, d, j) {
      if j != i {
        assert d.keys[j] != k;
      }
    }
    assert IsNearest(p, d, i);
  }

  /** Once the seeded ids are used up, a detection with no track strictly inside
      the gate (a distance of exactly 50 does not count) starts a new track under
      an id no track has held, one past the largest. */
  lemma FarDetectionStartsNewTrack(t: Tracker, p: Point, drawn: Color)
    requires Inv(t) && |t.pool| == 0 && InPlane(p)
    requires forall j :: j in t.positions.table ==> SqDist(p, LastPoint(t.positions.table[j])) >= GateSq
    ensures NextId(t, p) == MaxKey(t.positions.keys) + 1
    ensures NextId(t, p) !in t.positions.table
    ensures var r := Observe(t, Some(p), drawn);
      && r.positions.table[NextId(t, p)] == [p]
      && r.colors.table[NextId(t, p)] == drawn
  {
    var d := t.positions;
    forall i | 0 <= i < |d.keys| ensures !InGate(p, d, i) {
      assert d.keys[i] in d.table;
    }
  }

  /** `format_tracking_data`: the positions dict copied as it is, and the colours
      keyed by the decimal text of each id, as lists of three channels. */
  datatype Export = Export(positions: Positions, colors: Dict<string, seq<int>>)

  function ColorList(c: Color): seq<int> {
    [c.r, c.g, c.b]
  }

  /** The `str` of each id, in order. */
  function ShowKeys(keys: seq<int>): (r: seq<string>)
    ensures |r| == |keys|
    ensures forall i :: 0 <= i < |keys| ==> r[i] == Decimal.Show(keys[i])
  {
    if |keys| == 0 then [] else [Decimal.Show(keys[0])] + ShowKeys(keys[1..])
  }

  /** Distinct ids give distinct keys, so the comprehension drops no colour. */
  lemma ShowKeysDistinct(keys: seq<int>)
    requires Distinct(keys)
    ensures Distinct(ShowKeys(keys))
  {
    var r := ShowKeys(keys);
    forall i, j | 0 <= i < j < |r| ensures r[i] != r[j] {
      if r[i] == r[j] {
        Decimal.ShowInjective(keys[i], keys[j]);
      }
    }
  }

  /** The three-channel lists in dict order. */
  function ColorLists(d: Dict<int, Color>): (r: seq<seq<int>>)
    requires d.Valid()
    ensures |r| == |d.keys|
    ensures forall i :: 0 <= i < |r| ==> r[i] == ColorList(d.table[d.keys[i]])
  {
    seq(|d.keys|, i requires 0 <= i < |d.keys| => ColorList(d.table[d.keys[i]]))
  }

  function ExportColors(d: Dict<int, Color>): (r: Dict<string, seq<int>>)
    requires d.Valid()
    ensures r.Valid()
    ensures |r.keys| == |d.keys|
    ensures forall i :: 0 <= i < |d.keys| ==> r.keys[i] == Decimal.Show(d.keys[i])
    ensures forall i :: 0 <= i < |d.keys| ==> r.table[r.keys[i]] == ColorList(d.table[d.keys[i]])
  {
    ShowKeysDistinct(d.keys);
    FromPairs(ShowKeys(d.keys), ColorLists(d))
  }

  /** `format_tracking_data`: the histories as they are, and the colours keyed
      by the ids' `str` texts in the same order. */
  function FormatTrackingData(t: Tracker): (r: Export)
    requires t.colors.Valid()
    ensures r.positions == t.positions
    ensures r.colors.Valid() && |r.colors.keys| == |t.colors.keys|
    ensures forall i :: 0 <= i < |t.colors.keys| ==> r.colors.keys[i] == Decimal.Show(t.colors.keys[i])
    ensures forall i :: 0 <= i < |t.colors.keys| ==> r.colors.table[r.colors.keys[i]] == ColorList(t.colors.table[t.colors.keys[i]])
  {
    Export(t.positions, ExportColors(t.colors))
  }

  /** The export loses nothing: positions are unchanged, and reading each colour
      key back as a number gives the ids in their order, each with its three
      channels, all in 0..254. */
  lemma ExportRoundTrip(t: Tracker, i: int)
    requires Inv(t) && 0 <= i < |t.positions.keys|
    ensures var e := FormatTrackingData(t);
      && e.positions == t.positions
      && |e.colors.keys| == |t.positions.keys|
      && Decimal.IsNumeral(e.colors.keys[i])
      && Decimal.Parse(e.colors.keys[i]) == t.positions.keys[i]
      && e.colors.table[e.colors.keys[i]] == ColorList(t.colors.table[t.positions.keys[i]])
      && ValidColor(t.colors.table[t.positions.keys[i]])
  {
    Decimal.ParseShow(t.colors.keys[i]);
    assert t.colors.keys[i] in t.colors.table;
  }
}
